=== FILE: README.md ===
# Isolation agent search engine in Dafny

This project models the move-choosing core of a game-playing agent for Isolation.

- `MinimaxPlayer` searches with depth-limited minimax.
- `AlphaBetaPlayer` and the competition `CustomPlayer` search with iterative-deepening alpha-beta.
- The evaluation heuristics score positions for these players.

The game is abstract. A `Game<S, M>` value supplies the legal moves of the player to move, the successor state after a move, and the evaluation function. The evaluation function is fixed to the searching player's point of view. Scores form the tagged type `Loss | Finite(real) | Win`, ordered Loss < Finite(x) < Win. `Loss` and `Win` stand for the agents' float -inf and +inf.

The clock is an integer `t`: the milliseconds `time_left()` would report. Every search frame does the same things in this order:

1. It compares `t` with its threshold.
2. If `t` is below the threshold, it unwinds at once with `Interrupted`. This models `SearchTimeout`, and every caller passes it straight up.
3. Otherwise it spends one tick and does its work.

Evaluating a leaf does not look at the clock. Two players differ only in their timer:

- `AlphaBetaPlayer`'s helper frames time out below 1.5 times the threshold.
- `CustomPlayer`'s helper frames time out below the threshold itself.

The modules are:

- `Scores`, `Games`: the score type and its order; the game, reply, outcome and timer types.
- `Argmax`: the root choice rule. The root starts from the first move with -inf and replaces it only on a strictly greater score.
- `GameTree`: the reference minimax values, with no clock. This is the partner that both searches are proved against.
- `MinimaxPlayer`: timed `minimax` / `min_value` / `max_value` and `get_move`. A search completes exactly when the clock covers every frame it opens. It then returns the reference move.
- `AlphaBeta`, `AlphaBetaProofs`: timed alpha-beta search. Every completed helper frame is fail-soft against the reference value. So alpha-beta with the window (-inf, +inf) returns the minimax move.
- `Deepening`: the iterative-deepening `get_move` and the list `best_moves`. The list is the placeholder (-2, -2), followed by the minimax moves of depths 1, 2, … in order. The reply is the last element of that list.
- `Board`, `Heuristics`, `Evaluators`: the evaluation heuristics of `game_agent.py`, `competition_agent.py` and `additional_heuristics.py`.

Some properties of the heuristics as written:

- `percent_occupied` counts blank cells, not occupied ones. A high value means an early game.
- The wall lists are built with `width - 1` as a row and `height - 1` as a column. On a square board they hold exactly the border cells (`Board.SquareWallsAreTheBorder`). On a non-square board they can miss border cells and include inner ones: on a 3-wide, 5-high board the border cell (4, 1) is missed and the inner cell (2, 1) is included (`Board.NonSquareWallsMissTheBorder`).
- The wall/corner-aware differential tests walls before corners. On a square board every corner is also in a wall list, so its corner weight never applies (`Heuristics.SquareBoardIgnoresCorners`).

Where the docstrings of the agents and their code disagree, the model follows the code:

- `MinimaxPlayer.get_move` returns (-1, -1) on a timeout too, not only when there is no legal move.
- The iterative-deepening `get_move` returns (-2, -2), even if legal moves exist, when depth 1 does not complete. A depth-1 `alphabeta` scores its children directly and never calls a helper, so this happens exactly when the clock is already below the threshold on entry.

## Model

| member | source | states |
|---|---|---|
| Scores.LtIsStrictTotalOrder | game_agent.py:505-516 | the score comparison the loops use (`>`/`<` with -inf and +inf) is a strict total order |
| Scores.Improve | game_agent.py:537-538 | the running best is replaced only on a strict improvement; the result is the better of the two and one of them |
| Scores.Sentinel | game_agent.py:526-530 | the no-move score of a layer (-inf for max, +inf for min) bounds every score from the right side |
| Scores.Max | game_agent.py:753 | `max(alpha, best_score)` is at least both arguments and equal to one of them |
| Scores.Min | game_agent.py:724 | `min(beta, best_score)` is at most both arguments and equal to one of them |
| Games.HelperMarginIsWider | game_agent.py:701-705 | a helper frame with the 1.5x margin times out whenever the entry frame would; with a 1x margin the two checks coincide |
| Argmax.FirstBestIsFirstMax | game_agent.py:505-516 | the root scan from `legal_moves[0]` and -inf with strict `>` picks the first index holding a maximal score |
| Argmax.FirstBestFromInvariant | game_agent.py:507-516 | the root loop's invariant: scores seen are at most the best, scores before the best index are strictly below it |
| Argmax.FirstBestKeepsWin | game_agent.py:514-516 | once the running best is +inf no later move replaces the chosen one |
| GameTree.BestMove | game_agent.py:501-519 | the minimax reply is (-1, -1) exactly when there are no legal moves, otherwise a legal move that is the first maximiser of the root values |
| GameTree.RootValues | game_agent.py:507-512 | one value per legal move: the evaluation of the successor when the depth is 1, otherwise the value of a minimising layer at depth 2 on the successor |
| GameTree.ValueIsExtremum | game_agent.py:521-561 | a max (min) layer's value is the sentinel -inf (+inf) with no moves, otherwise the maximum (minimum) of its children's values, each child scored by `ChildValue` at the opposite polarity |
| GameTree.FoldIsExtremum | game_agent.py:531-540 | the loop of a layer returns its start or a child value, and bounds every child value in its direction |
| GameTree.HorizonIsScored | game_agent.py:532-533 | at `current_depth == depth_limit` a child is the evaluation of the successor from the searching player's view, for both polarities |
| GameTree.SingleMoveIsChosen | game_agent.py:505-519 | with one legal move every depth chooses that move |
| MinimaxPlayer.Frame | game_agent.py:521-561 | a helper frame times out before any work when the clock is below the threshold; it completes exactly when the clock covers all frames it opens, and then returns the minimax value |
| MinimaxPlayer.FrameLoop | game_agent.py:531-540 | a layer's loop completes exactly when the clock covers all frames below it, returns the loop's minimax fold, and spends one tick per frame |
| MinimaxPlayer.ChildOutcome | game_agent.py:532-535 | one iteration scores at the horizon without looking at the clock, otherwise runs the opposite helper one ply deeper |
| MinimaxPlayer.Search | game_agent.py:496-519 | `minimax` times out at once below the threshold; it completes exactly when the clock covers all frames and then returns the minimax move ((-1, -1) with no legal moves); at depth 1 it completes exactly when the entry check passes |
| MinimaxPlayer.RootLoop | game_agent.py:505-516 | the root loop with the timer returns the first-maximiser index when it completes |
| MinimaxPlayer.GetMove | game_agent.py:439-455 | `get_move` returns the minimax move when the search completes and (-1, -1) when it times out; a returned move is legal |
| MinimaxPlayer.SearchMonotoneInTime | game_agent.py:496-497 | more time left never turns a completed search into a timeout nor changes its move |
| MinimaxPlayer.LoopFramesZeroIff | game_agent.py:531-535 | a layer's loop opens no helper frame exactly when its children are on the horizon or it has no children left |
| MinimaxPlayer.RootFrames | game_agent.py:496-519 | a search opens at least the root frame, and only that one exactly when the depth is 1 or the root has no legal moves |
| AlphaBeta.Frame | game_agent.py:700-755 | an alpha-beta helper times out before any work when its margin is not met; with no legal moves it returns +inf (`min_value`) or -inf (`max_value`) after one tick; a completed helper has spent time |
| AlphaBeta.Loop | game_agent.py:712-727 | a helper's pruning loop never returns a clock reading later than its start |
| AlphaBeta.Child | game_agent.py:713-716 | at the horizon an iteration is the evaluation of the successor with the clock untouched |
| AlphaBeta.Search | game_agent.py:670-698 | `alphabeta` times out below the entry threshold; when it completes it returns (-1, -1) exactly when there are no legal moves and otherwise a legal move; at depth 1 it completes exactly when the entry check passes |
| AlphaBeta.RootLoop | game_agent.py:679-698 | the root loop returns an index of a legal move, and at depth 1 (children scored directly, no helper called) it always completes |
| AlphaBetaProofs.FrameIsFailSoft | game_agent.py:700-755 | a completed helper searched with window (alpha, beta) returns r with: r <= alpha implies value <= r, r >= beta implies value >= r, otherwise r is the minimax value |
| AlphaBetaProofs.LoopIsFailSoft | game_agent.py:712-727 | the pruning loop, with alpha raised only in max frames and beta lowered only in min frames, stays fail-soft against the unpruned loop |
| AlphaBetaProofs.ChildIsFailSoft | game_agent.py:742-745 | one iteration's score is fail-soft against its child's minimax value |
| AlphaBetaProofs.MaxStep | game_agent.py:747-753 | one step of a max loop keeps its invariant or cuts off at a value bounded by the true value |
| AlphaBetaProofs.MinStep | game_agent.py:718-724 | one step of a min loop keeps its invariant or cuts off at a value bounded by the true value |
| AlphaBetaProofs.RootLoopIsFirstBest | game_agent.py:679-698 | with beta = +inf and alpha = running best, the root loop picks the same index as the unpruned scan, including on the beta cutoff |
| AlphaBetaProofs.AlphaBetaIsMinimax | game_agent.py:625-698 | a completed `alphabeta(s, D)` with window (-inf, +inf) returns the depth-D minimax move, for either timer |
| AlphaBetaProofs.SameMoveAsMinimax | competition_agent.py:185-213 | completed alpha-beta and completed minimax searches of one state and depth return the same move |
| AlphaBetaProofs.MaxCutoffIgnoresLaterMoves | competition_agent.py:262-268 | a max loop whose best reaches beta returns without looking at any later move |
| AlphaBetaProofs.MinCutoffIgnoresLaterMoves | competition_agent.py:233-239 | a min loop whose best falls to alpha returns without looking at any later move |
| AlphaBetaProofs.WiderMarginInterruptsHelpers | game_agent.py:730-734 | with the 1.5x margin a helper times out for any clock reading below 1.5 times the threshold |
| AlphaBetaProofs.FrameCompletes | game_agent.py:729-755 | a helper frame completes whenever its check would still pass after every frame minimax opens below it, and spends no more ticks than minimax |
| AlphaBetaProofs.LoopCompletes | game_agent.py:741-755 | the pruning loop completes under the same condition, with or without a cutoff, and spends no more ticks than the unpruned loop |
| AlphaBetaProofs.ChildCompletes | game_agent.py:742-745 | one iteration completes under the same condition |
| AlphaBetaProofs.RootLoopCompletes | game_agent.py:681-695 | the root loop completes under the same condition |
| AlphaBetaProofs.SearchCompletes | game_agent.py:670-698 | `alphabeta` at any depth completes when the entry check passes and the helper check would pass after all the frames minimax opens; it spends no more ticks than minimax |
| AlphaBetaProofs.CompletesWhenMinimaxDoes | competition_agent.py:185-270 | with the 1x margin of the competition player, alpha-beta completes whenever minimax completes on the same clock, and returns the same move |
| Deepening.Deepen | game_agent.py:608-619 | the deepening loop only appends to `best_moves` |
| Deepening.StopClock | game_agent.py:608-616 | the last, interrupted iteration starts no later than the loop |
| Deepening.DeepenKeepsHistory | game_agent.py:604-619 | each completed depth appends exactly the minimax move of that depth, in depth order |
| Deepening.HistoryIsWellFormed | game_agent.py:604-619 | `best_moves` is (-2, -2) followed by the minimax moves of depths 1, 2, … |
| Deepening.PlaceholderIffFirstDepthTimesOut | game_agent.py:604-616 | only the placeholder is left exactly when depth 1 times out |
| Deepening.DeepenStopsOnTimeout | game_agent.py:609-616 | the loop stops only when the depth after the last completed one is interrupted |
| Deepening.NextDepthTimedOut | game_agent.py:609-616 | the depth after the deepest completed one was interrupted |
| Deepening.GetMove | game_agent.py:600-619 | `get_move` returns the minimax move of the deepest completed depth; it returns (-2, -2) exactly when the clock is below the threshold on entry, and otherwise a legal move whenever one exists; (-1, -1) means no legal moves |
| Deepening.SecondDepthCompletes | game_agent.py:608-619 | when the depth-2 search, started one tick after entry, passes all its checks, the loop completes at least depths 1 and 2 |
| Deepening.AlphaBetaPlayerMove | game_agent.py:570-619 | `AlphaBetaPlayer.get_move` with 1.5x helper margins: the deepest completed minimax move or (-2, -2) |
| Deepening.CustomPlayerMove | competition_agent.py:115-134 | `CustomPlayer.get_move` with 1x margins everywhere: the deepest completed minimax move or (-2, -2) |
| Board.IsNearWalls | additional_heuristics.py:19-22 | a move is near the walls iff it belongs to at least one wall list |
| Board.IsInCorners | additional_heuristics.py:42 | a move is in the corners iff it is an element of the corner list |
| Board.Corners | game_agent.py:231 | a cell is in the corner list exactly when its row is 0 or height-1 and its column is 0 or width-1 |
| Board.NearWallsIff | game_agent.py:224-229 | a cell is in some wall list exactly when it is in row 0 with column below width, in column 0 with row below height, in row width-1 with column below width, or in column height-1 with row below height |
| Board.SquareWallsAreTheBorder | game_agent.py:224-229 | on a square board a cell is in a wall list iff it is on the border |
| Board.NonSquareWallsMissTheBorder | game_agent.py:224-229 | on a 3x5 board the border cell (4, 1) is not in any wall list while the inner cell (2, 1) is |
| Board.SquareCornersAreNearWalls | game_agent.py:231 | on a square board every corner is in some wall list |
| Board.PercentBlank | additional_heuristics.py:59-60 | the blank percentage is the floor of 100·blanks/(width·height), within 0..100 when blanks fit on the board |
| Heuristics.Guarded | game_agent.py:99-103 | -inf exactly for a loser, +inf exactly for a non-losing winner, finite otherwise |
| Heuristics.OpenMoveDifferential | game_agent.py:99-111 | sentinels as above; finite value own − aggressiveness·opp |
| Heuristics.OpenMoveMonotone | game_agent.py:105-109 | more own moves and fewer opponent moves never lower the open-move score |
| Heuristics.CustomScore | game_agent.py:320 | `custom_score` is own − opp |
| Heuristics.CustomScore2 | game_agent.py:346 | `custom_score_2` is own − 0.5·opp |
| Heuristics.CustomScore3 | game_agent.py:372 | `custom_score_3` is own − 2.5·opp |
| Heuristics.PresetsOrderedByAggressiveness | game_agent.py:295-372 | when the opponent can move, custom_score_3 < custom_score < custom_score_2 |
| Heuristics.CustomScoreAntisymmetric | game_agent.py:320 | exchanging the two move lists negates `custom_score` |
| Heuristics.TimeVariant | game_agent.py:136-160 | sentinels; finite value own − 2.5·opp or own − 0.5·opp |
| Heuristics.TimeVariantsAreMirrored | game_agent.py:147-158 | variant 1 and any other variant weigh the opponent by 3 together; variant 1 uses 2.5 exactly below 50 percent blank |
| Heuristics.OnwardTotalBoundsTerms | game_agent.py:175-176 | the summed onward moves bound each move's count, and are zero exactly when no move leads anywhere |
| Heuristics.LookAheadDifferential | game_agent.py:165-177 | sentinels; finite value own·Σonward(own) − aggressiveness·opp·Σonward(opp) |
| Heuristics.LookAheadAggressive | game_agent.py:182-192 | sentinels; the finite value is never positive |
| Heuristics.AggressiveIsDifferentialWithoutOwnMoves | game_agent.py:180-192 | the aggressive look-ahead is the look-ahead differential of a player with no moves |
| Heuristics.CompetitionScore | competition_agent.py:38-52 | -inf iff loser, +inf iff winner and not loser, finite otherwise |
| Heuristics.CompetitionScoreAntisymmetric | competition_agent.py:46-52 | exchanging the two move lists negates the competition score |
| Heuristics.AwareStep | game_agent.py:252-267 | each move adds to exactly one of the wall, corner or open tallies, walls tested before corners: a wall move adds 10 below 30 percent, -20 from 30 to 59, -30 from 60; a corner move 15 below 60, else -40; any other move 10 open |
| Heuristics.AwareTally | game_agent.py:252-284 | a side's wall tally lies in [-30n, 10n], its corner tally in [-40n, 15n], its open tally in [0, 10n] |
| Heuristics.WallCornerAware | game_agent.py:218-292 | sentinels; finite otherwise |
| Heuristics.WallCornerAwareAntisymmetric | game_agent.py:286-292 | exchanging the two move lists negates the wall- and corner-aware score, on any board |
| Heuristics.WallCornerAwareStep | game_agent.py:252-290 | one more own move adds 0.3 times its wall amount, 0.7 times its corner amount and its open amount to the score |
| Heuristics.SquareTallyHasNoCorners | game_agent.py:252-284 | on a square board no move reaches the corner branch |
| Heuristics.SquareBoardIgnoresCorners | game_agent.py:286-292 | on a square board the score is 0.3·wall difference + open difference |
| Evaluators.ChaseOpponent | additional_heuristics.py:85-93 | sentinels; finite value is abs(own − 2·opp): non-negative, equal to ±(own − 2·opp), zero iff own = 2·opp |
| Evaluators.WallStep | additional_heuristics.py:142-150 | a move adds exactly one of +10, -20, -30 to the score or +5 to moves left: +10 iff on a wall below 50 percent, -20 iff on a wall strictly between 50 and 85, -30 iff on a wall above 85, +5 iff off the walls or at exactly 50 or 85 percent |
| Evaluators.WallTally | additional_heuristics.py:142-160 | a side's near-wall score lies in [-30n, 10n], its moves-left count in [0, 5n], and their sum in [-30n, 10n] |
| Evaluators.NearWallsValue | additional_heuristics.py:162 | the difference of the two sides' tallies is bounded by 30 per move |
| Evaluators.NearWallsValueStep | additional_heuristics.py:142-162 | one more move for the player adds its score plus moves-left contribution to the value; one more for the opponent subtracts it |
| Evaluators.NearWalls | additional_heuristics.py:129-162 | sentinels; finite value bounded by 30 per move |
| Evaluators.WallThresholdsFallThrough | additional_heuristics.py:143-150 | at exactly 50 or 85 percent every move counts 5 towards moves left |
| Evaluators.OffWallMovesCountFive | additional_heuristics.py:149-150 | moves off the walls count only 5 towards moves left |
| Evaluators.NearWallsAntisymmetric | additional_heuristics.py:162 | exchanging the two move lists negates the near-walls value |
| Evaluators.CornerStep | additional_heuristics.py:205-211 | a move adds exactly one of +15, -40 to the score or +10 to moves left; +10 iff not a corner or at exactly 60 percent |
| Evaluators.CornerTally | additional_heuristics.py:205-219 | a side's corner score lies in [-40n, 15n], its moves-left count in [0, 10n], and their sum in [-40n, 15n] |
| Evaluators.InCornersValue | additional_heuristics.py:221 | the difference of the two sides' tallies is bounded by 40 per move |
| Evaluators.InCornersValueStep | additional_heuristics.py:205-221 | one more move for the player adds its score plus moves-left contribution to the value; one more for the opponent subtracts it |
| Evaluators.InCorners | additional_heuristics.py:193-221 | sentinels; finite value bounded by 40 per move |
| Evaluators.CornerThresholdFallsThrough | additional_heuristics.py:206-211 | at exactly 60 percent every move counts 10 towards moves left |
| Evaluators.InCornersAntisymmetric | additional_heuristics.py:221 | exchanging the two move lists negates the in-corners value |
| Evaluators.NearWallsAndCorners | additional_heuristics.py:248-250 | -inf exactly for a loser, +inf exactly for a non-losing winner |
| Evaluators.BlendOfComponents | additional_heuristics.py:248-250 | the blend is 0.3·near-walls + 0.7·in-corners when finite, and shares their sentinel otherwise |

## Left out

- The `isolation.Board` class is not part of this model. Its legal-move generator, `forecast_move`, `is_loser`/`is_winner`, blank-cell count and the private `_Board__get_moves` become the fields of `Game` and `Position` and the `onward` function.
- The wall clock is an integer reading that each frame lowers by one tick. Real durations, and the time spent evaluating leaves, are not modelled. The thresholds are whole milliseconds, and the 1.5x margin is the exact test 2t < 3T.
- Board.PercentBlank: exact integer division instead of the float expression `int(b / (w*h) * 100)`. The two can differ by one; for 29 blanks on 100 cells the float gives 28.
- Python float arithmetic is exact `real` arithmetic. NaN cannot arise, because the blend's two components always carry the same sentinel.
- MinimaxPlayer.Search and AlphaBeta.Search take search depths of at least 1, and the depths Deepening.GetMove tries start at 1. This is the strictly positive `search_depth` the base class documents. With depth 0 or less the agents recurse past the horizon until the game ends or the clock runs out.
- AlphaBetaProofs.AlphaBetaIsMinimax: equality with minimax is proved only for the window (-inf, +inf). That is the only window `get_move` uses. Other windows get the fail-soft bound only.
- AlphaBeta.Frame: its own contract states the timing and the no-move sentinel. The value of a frame with moves is stated by `AlphaBetaProofs.FrameIsFailSoft`, and when it completes by `AlphaBetaProofs.FrameCompletes`.
- The root loops track the index of the best move rather than the move itself. This is the same choice, because `best_move = legal_move` always takes `legal_moves[k]`.
- `SearchTimeout` is the `Interrupted` outcome rather than an exception.
- The per-player `self.time_left` / `self.score` attributes become parameters.
- `agent_test.py` is a printing smoke test, and `plot_win_rate.py` plots fixed data. Neither is part of this model.

=== FILE: alphabeta.dfy ===
/**
 Depth-limited alpha-beta search under a clock, as written twice in the
 agents: `AlphaBetaPlayer` (helper frames check 1.5 times the threshold)
 and `CustomPlayer` (every frame checks the threshold itself). The two
 differ only in the `Timer` they run with.

 Alpha and beta are passed by value: a maximising loop raises its own alpha
 after each child that does not cut off, a minimising loop lowers its own
 beta, and every child starts from the bounds of its parent at that moment.
 */
module AlphaBeta {
  import opened Scores
  import opened Games
  import opened Argmax
  import opened GameTree

  /** The helper frames `min_value` (max == false) and `max_value`
      (max == true). */
  function Frame<S, M>(g: Game<S, M>, tm: Timer, s: S, cur: nat, limit: nat, max: bool, alpha: Score, beta: Score, t: int): (r: Outcome<Score>)
    requires 1 <= cur <= limit
    ensures HelperExpired(tm, t) ==> r == Interrupted
    ensures r.Done? ==> r.left < t
    ensures !HelperExpired(tm, t) && |g.moves(s)| == 0 ==> r == Done(Sentinel(max), t - 1)
    decreases limit - cur, 1, 0
  {
    if HelperExpired(tm, t) then Interrupted
    else
      var ms := g.moves(s);
      if |ms| == 0 then Done(Sentinel(max), t - 1)
      else Loop(g, tm, s, ms, 0, cur, limit, max, Sentinel(max), alpha, beta, t - 1)
  }

  /** The loop of a helper frame from `ms[k]` on: a maximising loop stops as
      soon as its best reaches beta and otherwise raises alpha; a minimising
      loop stops as soon as its best falls to alpha and otherwise lowers
      beta. */
  function Loop<S, M>(g: Game<S, M>, tm: Timer, s: S, ms: seq<M>, k: nat, cur: nat, limit: nat, max: bool,
                      best: Score, alpha: Score, beta: Score, t: int): (r: Outcome<Score>)
    requires 1 <= cur <= limit && k <= |ms|
    ensures r.Done? ==> r.left <= t
    decreases limit - cur, 0, |ms| - k
  {
    if k == |ms| then Done(best, t)
    else
      match Child(g, tm, s, ms[k], cur, limit, max, alpha, beta, t)
      case Interrupted => Interrupted
      case Done(v, left) =>
        var b := Improve(max, best, v);
        if max then
          if Le(beta, b) then Done(b, left)
          else Loop(g, tm, s, ms, k + 1, cur, limit, max, b, Max(alpha, b), beta, left)
        else
          if Le(b, alpha) then Done(b, left)
          else Loop(g, tm, s, ms, k + 1, cur, limit, max, b, alpha, Min(beta, b), left)
  }

  /** One iteration's score: the evaluation at the horizon, otherwise the
      opposite helper one ply deeper with the current bounds. */
  function Child<S, M>(g: Game<S, M>, tm: Timer, s: S, m: M, cur: nat, limit: nat, max: bool,
                       alpha: Score, beta: Score, t: int): (r: Outcome<Score>)
    requires 1 <= cur <= limit
    ensures r.Done? ==> r.left <= t
    ensures cur == limit ==> r == Done(g.score(g.forecast(s, m)), t)
    decreases limit - cur, 0, 0
  {
    var next := g.forecast(s, m);
    if cur == limit then Done(g.score(next), t)
    else Frame(g, tm, next, cur + 1, limit, !max, alpha, beta, t)
  }

  /** `alphabeta`: the entry check, the (-1, -1) reply when the root has no
      legal moves, and otherwise the root loop from alpha and beta. */
  function Search<S, M>(g: Game<S, M>, tm: Timer, s: S, depth: nat, alpha: Score, beta: Score, t: int): (r: Outcome<Reply<M>>)
    requires depth >= 1
    ensures EntryExpired(tm, t) ==> r == Interrupted
    ensures r.Done? ==> !EntryExpired(tm, t) && r.left < t
    ensures r.Done? ==> (r.value == NoMove <==> |g.moves(s)| == 0)
    ensures r.Done? && r.value.Play? ==> r.value.move in g.moves(s)
    ensures r.Done? ==> r.value != Placeholder
    ensures depth == 1 ==> (r.Done? <==> !EntryExpired(tm, t))
  {
    if EntryExpired(tm, t) then Interrupted
    else
      var ms := g.moves(s);
      if |ms| == 0 then Done(NoMove, t - 1)
      else
        match RootLoop(g, tm, s, ms, depth, 0, 0, Loss, alpha, beta, t - 1)
        case Interrupted => Interrupted
        case Done(i, left) => Done(Play(ms[i]), left)
  }

  /** The root loop: replace the best move on a strictly greater score,
      return it at once when the best score reaches beta, otherwise raise
      alpha. Tracks the index of the best move. */
  function RootLoop<S, M>(g: Game<S, M>, tm: Timer, s: S, ms: seq<M>, depth: nat, k: nat, bi: nat, best: Score,
                          alpha: Score, beta: Score, t: int): (r: Outcome<nat>)
    requires depth >= 1 && k <= |ms| && bi < |ms|
    ensures r.Done? ==> r.value < |ms| && r.left <= t
    ensures depth == 1 ==> r.Done?
    decreases |ms| - k
  {
    if k == |ms| then Done(bi, t)
    else
      match Child(g, tm, s, ms[k], 1, depth, true, alpha, beta, t)
      case Interrupted => Interrupted
      case Done(v, left) =>
        var bi' := if Lt(best, v) then k else bi;
        var best' := if Lt(best, v) then v else best;
        if Le(beta, best') then Done(bi', left)
        else RootLoop(g, tm, s, ms, depth, k + 1, bi', best', Max(alpha, best'), beta, left)
  }
}

=== FILE: alphabeta_proofs.dfy ===
/**
 Alpha-beta returns the minimax move. The frames satisfy the fail-soft
 contract against the true minimax value, and at the root, searched with
 the window (-inf, +inf), this is enough for the root loop to make exactly
 the choices of the minimax root loop.
 */
module AlphaBetaProofs {
  import opened Scores
  import opened Games
  import opened Argmax
  import opened GameTree
  import AlphaBeta
  import MinimaxPlayer

  /** What a frame's result `r`, searched with the window (alpha, beta),
      says about the true value `v`: a result at or below alpha bounds `v`
      from above, one at or above beta bounds it from below, and one inside
      the window is exact. */
  ghost predicate FailSoft(r: Score, v: Score, alpha: Score, beta: Score) {
    && (Le(r, alpha) ==> Le(v, r))
    && (Le(beta, r) ==> Le(r, v))
    && (Lt(alpha, r) && Lt(r, beta) ==> r == v)
  }

  /** The state a maximising loop keeps, relating its running best to the
      running best `acc` of the unpruned loop. `alpha0` is the alpha the
      frame was entered with. */
  ghost predicate MaxInvariant(best: Score, alpha: Score, beta: Score, acc: Score, alpha0: Score) {
    && Lt(alpha0, beta) && alpha == Max(alpha0, best) && Lt(best, beta)
    && Le(acc, best) && (Lt(alpha0, best) ==> acc == best)
  }

  /** The mirror image for a minimising loop entered with `beta0`. */
  ghost predicate MinInvariant(best: Score, alpha: Score, beta: Score, acc: Score, beta0: Score) {
    && Lt(alpha, beta0) && beta == Min(beta0, best) && Lt(alpha, best)
    && Le(best, acc) && (Lt(best, beta0) ==> acc == best)
  }

  lemma MaxStep(best: Score, alpha: Score, beta: Score, acc: Score, alpha0: Score, v: Score, cv: Score)
    requires MaxInvariant(best, alpha, beta, acc, alpha0)
    requires FailSoft(v, cv, alpha, beta)
    ensures var b := Improve(true, best, v); var acc' := Improve(true, acc, cv);
      && (Le(beta, b) ==> Le(b, acc'))
      && (!Le(beta, b) ==> MaxInvariant(b, Max(alpha, b), beta, acc', alpha0))
  {
  }

  lemma MinStep(best: Score, alpha: Score, beta: Score, acc: Score, beta0: Score, v: Score, cv: Score)
    requires MinInvariant(best, alpha, beta, acc, beta0)
    requires FailSoft(v, cv, alpha, beta)
    ensures var b := Improve(false, best, v); var acc' := Improve(false, acc, cv);
      && (Le(b, alpha) ==> Le(acc', b))
      && (!Le(b, alpha) ==> MinInvariant(b, alpha, Min(beta, b), acc', beta0))
  {
  }

  /** A completed helper frame is fail-soft with respect to the minimax
      value of its layer. */
  lemma {:induction false} FrameIsFailSoft<S, M>(g: Game<S, M>, tm: Timer, s: S, cur: nat, limit: nat, max: bool,
                                                 alpha: Score, beta: Score, t: int)
    requires 1 <= cur <= limit && Lt(alpha, beta)
    ensures var r := AlphaBeta.Frame(g, tm, s, cur, limit, max, alpha, beta, t);
      r.Done? ==> FailSoft(r.value, Value(g, s, cur, limit, max), alpha, beta)
    decreases limit - cur, 1, 0
  {
    var ms := g.moves(s);
    if !HelperExpired(tm, t) && |ms| > 0 {
      LoopIsFailSoft(g, tm, s, ms, 0, cur, limit, max, Sentinel(max), alpha, beta, Sentinel(max), alpha, beta, t - 1);
    }
  }

  lemma {:induction false} LoopIsFailSoft<S, M>(g: Game<S, M>, tm: Timer, s: S, ms: seq<M>, k: nat, cur: nat, limit: nat, max: bool,
                                                best: Score, alpha: Score, beta: Score, acc: Score, alpha0: Score, beta0: Score, t: int)
    requires 1 <= cur <= limit && k <= |ms|
    requires max ==> MaxInvariant(best, alpha, beta, acc, alpha0) && beta == beta0
    requires !max ==> MinInvariant(best, alpha, beta, acc, beta0) && alpha == alpha0
    ensures var r := AlphaBeta.Loop(g, tm, s, ms, k, cur, limit, max, best, alpha, beta, t);
      r.Done? ==> FailSoft(r.value, Fold(g, s, ms, k, cur, limit, max, acc), alpha0, beta0)
    decreases limit - cur, 0, |ms| - k
  {
    if k < |ms| {
      ChildIsFailSoft(g, tm, s, ms[k], cur, limit, max, alpha, beta, t);
      match AlphaBeta.Child(g, tm, s, ms[k], cur, limit, max, alpha, beta, t)
      case Interrupted =>
      case Done(v, left) =>
        var cv := ChildValue(g, s, ms[k], cur, limit, max);
        var b := Improve(max, best, v);
        var acc' := Improve(max, acc, cv);
        var f := Fold(g, s, ms, k + 1, cur, limit, max, acc');
        if max {
          MaxStep(best, alpha, beta, acc, alpha0, v, cv);
          if Le(beta, b) {
            FoldIsExtremum(g, s, ms, k + 1, cur, limit, max, acc');
            LeTransitive(b, acc', f);
          } else {
            LoopIsFailSoft(g, tm, s, ms, k + 1, cur, limit, max, b, Max(alpha, b), beta, acc', alpha0, beta0, left);
          }
        } else {
          MinStep(best, alpha, beta, acc, beta0, v, cv);
          if Le(b, alpha) {
            FoldIsExtremum(g, s, ms, k + 1, cur, limit, max, acc');
            LeTransitive(f, acc', b);
          } else {
            LoopIsFailSoft(g, tm, s, ms, k + 1, cur, limit, max, b, alpha, Min(beta, b), acc', alpha0, beta0, left);
          }
        }
    }
  }

  lemma {:induction false} ChildIsFailSoft<S, M>(g: Game<S, M>, tm: Timer, s: S, m: M, cur: nat, limit: nat, max: bool,
                                                 alpha: Score, beta: Score, t: int)
    requires 1 <= cur <= limit && Lt(alpha, beta)
    ensures var r := AlphaBeta.Child(g, tm, s, m, cur, limit, max, alpha, beta, t);
      r.Done? ==> FailSoft(r.value, ChildValue(g, s, m, cur, limit, max), alpha, beta)
    decreases limit - cur, 0, 0
  {
    if cur < limit {
      FrameIsFailSoft(g, tm, g.forecast(s, m), cur + 1, limit, !max, alpha, beta, t);
    }
  }

  /** With alpha equal to the running best and beta = +inf, the root loop
      picks the same index as the unpruned scan of the root values. */
  lemma {:induction false} RootLoopIsFirstBest<S, M>(g: Game<S, M>, tm: Timer, s: S, ms: seq<M>, depth: nat,
                                                     k: nat, bi: nat, best: Score, t: int)
    requires depth >= 1 && ms == g.moves(s) && k <= |ms| && bi < |ms| && Lt(best, Win)
    ensures var r := AlphaBeta.RootLoop(g, tm, s, ms, depth, k, bi, best, best, Win, t);
      r.Done? ==> r.value == FirstBest(RootValues(g, s, depth), k, bi, best)
    decreases |ms| - k
  {
    if k < |ms| {
      var vals := RootValues(g, s, depth);
      ChildIsFailSoft(g, tm, s, ms[k], 1, depth, true, best, Win, t);
      match AlphaBeta.Child(g, tm, s, ms[k], 1, depth, true, best, Win, t)
      case Interrupted =>
      case Done(v, left) =>
        if Lt(best, v) {
          if v == Win {
            FirstBestKeepsWin(vals, k + 1, k);
          } else {
            RootLoopIsFirstBest(g, tm, s, ms, depth, k + 1, k, v, left);
          }
        } else {
          LeTransitive(vals[k], v, best);
          RootLoopIsFirstBest(g, tm, s, ms, depth, k + 1, bi, best, left);
        }
    }
  }

  /** Alpha-beta with the default window (-inf, +inf) returns, when it
      completes, exactly the move of depth-limited minimax, whichever timer
      it runs with. */
  lemma AlphaBetaIsMinimax<S, M>(g: Game<S, M>, tm: Timer, s: S, depth: nat, t: int)
    requires depth >= 1
    ensures var r := AlphaBeta.Search(g, tm, s, depth, Loss, Win, t);
      r.Done? ==> r.value == BestMove(g, s, depth)
  {
    var ms := g.moves(s);
    if !EntryExpired(tm, t) && |ms| > 0 {
      RootLoopIsFirstBest(g, tm, s, ms, depth, 0, 0, Loss, t - 1);
    }
  }

  /** Pruning never changes the move: two completed searches of the same
      state and depth, one with alpha-beta and one with plain minimax,
      agree. */
  lemma SameMoveAsMinimax<S, M>(g: Game<S, M>, tm: Timer, T: nat, s: S, depth: nat, t: int, t': int)
    requires depth >= 1
    requires AlphaBeta.Search(g, tm, s, depth, Loss, Win, t).Done?
    requires MinimaxPlayer.Search(g, T, s, depth, t').Done?
    ensures AlphaBeta.Search(g, tm, s, depth, Loss, Win, t).value == MinimaxPlayer.Search(g, T, s, depth, t').value
  {
    AlphaBetaIsMinimax(g, tm, s, depth, t);
  }

  /** A maximising loop whose best reaches beta at `ms[k]` returns without
      looking at any later move: the moves after `k` do not matter. */
  lemma MaxCutoffIgnoresLaterMoves<S, M>(g: Game<S, M>, tm: Timer, s: S, ms: seq<M>, ms': seq<M>, k: nat, cur: nat, limit: nat,
                                         best: Score, alpha: Score, beta: Score, t: int)
    requires 1 <= cur <= limit && k < |ms| && k < |ms'| && ms[k] == ms'[k]
    requires var c := AlphaBeta.Child(g, tm, s, ms[k], cur, limit, true, alpha, beta, t);
      c.Done? && Le(beta, Improve(true, best, c.value))
    ensures AlphaBeta.Loop(g, tm, s, ms, k, cur, limit, true, best, alpha, beta, t)
         == AlphaBeta.Loop(g, tm, s, ms', k, cur, limit, true, best, alpha, beta, t)
    ensures AlphaBeta.Loop(g, tm, s, ms, k, cur, limit, true, best, alpha, beta, t).Done?
  {
  }

  /** The mirror image: a minimising loop whose best falls to alpha. */
  lemma MinCutoffIgnoresLaterMoves<S, M>(g: Game<S, M>, tm: Timer, s: S, ms: seq<M>, ms': seq<M>, k: nat, cur: nat, limit: nat,
                                         best: Score, alpha: Score, beta: Score, t: int)
    requires 1 <= cur <= limit && k < |ms| && k < |ms'| && ms[k] == ms'[k]
    requires var c := AlphaBeta.Child(g, tm, s, ms[k], cur, limit, false, alpha, beta, t);
      c.Done? && Le(Improve(false, best, c.value), alpha)
    ensures AlphaBeta.Loop(g, tm, s, ms, k, cur, limit, false, best, alpha, beta, t)
         == AlphaBeta.Loop(g, tm, s, ms', k, cur, limit, false, best, alpha, beta, t)
    ensures AlphaBeta.Loop(g, tm, s, ms, k, cur, limit, false, best, alpha, beta, t).Done?
  {
  }

  /** With a 1.5x margin a helper frame times out on any clock reading
      below 1.5 times the threshold, even where the entry check passes. */
  lemma WiderMarginInterruptsHelpers<S, M>(g: Game<S, M>, T: nat, s: S, cur: nat, limit: nat, max: bool,
                                           alpha: Score, beta: Score, t: int)
    requires 1 <= cur <= limit && 2 * t < 3 * T
    ensures AlphaBeta.Frame(g, Timer(T, OneAndHalf), s, cur, limit, max, alpha, beta, t) == Interrupted
  {
  }

  // ----- completion: pruning never opens more frames than minimax -----

  /** A helper check that passes at some reading passes at every later one. */
  lemma HelperCheckMonotone(tm: Timer, t: int, t': int)
    requires t <= t' && !HelperExpired(tm, t)
    ensures !HelperExpired(tm, t')
  {
  }

  /** A helper frame completes when the helper check would still pass after
      every frame minimax opens below it, and then it has spent at most as
      many ticks as minimax. */
  lemma {:induction false} FrameCompletes<S, M>(g: Game<S, M>, tm: Timer, s: S, cur: nat, limit: nat, max: bool,
                                                alpha: Score, beta: Score, t: int)
    requires 1 <= cur <= limit
    requires !HelperExpired(tm, t - MinimaxPlayer.Frames(g, s, cur, limit) + 1)
    ensures var r := AlphaBeta.Frame(g, tm, s, cur, limit, max, alpha, beta, t);
      r.Done? && r.left >= t - MinimaxPlayer.Frames(g, s, cur, limit)
    decreases limit - cur, 1, 0
  {
    HelperCheckMonotone(tm, t - MinimaxPlayer.Frames(g, s, cur, limit) + 1, t);
    var ms := g.moves(s);
    if |ms| > 0 {
      LoopCompletes(g, tm, s, ms, 0, cur, limit, max, Sentinel(max), alpha, beta, t - 1);
    }
  }

  /** The pruning loop from `ms[k]` on completes under the same condition,
      whether or not it cuts off. */
  lemma {:induction false} LoopCompletes<S, M>(g: Game<S, M>, tm: Timer, s: S, ms: seq<M>, k: nat, cur: nat, limit: nat, max: bool,
                                               best: Score, alpha: Score, beta: Score, t: int)
    requires 1 <= cur <= limit && k <= |ms|
    requires var n := MinimaxPlayer.LoopFrames(g, s, ms, k, cur, limit);
      n == 0 || !HelperExpired(tm, t - n + 1)
    ensures var r := AlphaBeta.Loop(g, tm, s, ms, k, cur, limit, max, best, alpha, beta, t);
      r.Done? && r.left >= t - MinimaxPlayer.LoopFrames(g, s, ms, k, cur, limit)
    decreases limit - cur, 0, |ms| - k
  {
    if k < |ms| {
      var n := MinimaxPlayer.LoopFrames(g, s, ms, k, cur, limit);
      var cf := MinimaxPlayer.ChildFrames(g, s, ms[k], cur, limit);
      var rest := MinimaxPlayer.LoopFrames(g, s, ms, k + 1, cur, limit);
      assert n == cf + rest;
      if cf > 0 {
        HelperCheckMonotone(tm, t - n + 1, t - cf + 1);
      }
      ChildCompletes(g, tm, s, ms[k], cur, limit, max, alpha, beta, t);
      var c := AlphaBeta.Child(g, tm, s, ms[k], cur, limit, max, alpha, beta, t);
      var b := Improve(max, best, c.value);
      if rest > 0 {
        HelperCheckMonotone(tm, t - n + 1, c.left - rest + 1);
      }
      if max {
        if !Le(beta, b) {
          LoopCompletes(g, tm, s, ms, k + 1, cur, limit, max, b, Max(alpha, b), beta, c.left);
        }
      } else {
        if !Le(b, alpha) {
          LoopCompletes(g, tm, s, ms, k + 1, cur, limit, max, b, alpha, Min(beta, b), c.left);
        }
      }
    }
  }

  /** One iteration completes under the same condition. */
  lemma {:induction false} ChildCompletes<S, M>(g: Game<S, M>, tm: Timer, s: S, m: M, cur: nat, limit: nat, max: bool,
                                                alpha: Score, beta: Score, t: int)
    requires 1 <= cur <= limit
    requires var n := MinimaxPlayer.ChildFrames(g, s, m, cur, limit);
      n == 0 || !HelperExpired(tm, t - n + 1)
    ensures var r := AlphaBeta.Child(g, tm, s, m, cur, limit, max, alpha, beta, t);
      r.Done? && r.left >= t - MinimaxPlayer.ChildFrames(g, s, m, cur, limit)
    decreases limit - cur, 0, 0
  {
    if cur < limit {
      FrameCompletes(g, tm, g.forecast(s, m), cur + 1, limit, !max, alpha, beta, t);
    }
  }

  /** The root loop completes under the same condition. */
  lemma {:induction false} RootLoopCompletes<S, M>(g: Game<S, M>, tm: Timer, s: S, ms: seq<M>, depth: nat, k: nat, bi: nat,
                                                   best: Score, alpha: Score, beta: Score, t: int)
    requires depth >= 1 && k <= |ms| && bi < |ms|
    requires var n := MinimaxPlayer.LoopFrames(g, s, ms, k, 1, depth);
      n == 0 || !HelperExpired(tm, t - n + 1)
    ensures var r := AlphaBeta.RootLoop(g, tm, s, ms, depth, k, bi, best, alpha, beta, t);
      r.Done? && r.left >= t - MinimaxPlayer.LoopFrames(g, s, ms, k, 1, depth)
    decreases |ms| - k
  {
    if k < |ms| {
      var n := MinimaxPlayer.LoopFrames(g, s, ms, k, 1, depth);
      var cf := MinimaxPlayer.ChildFrames(g, s, ms[k], 1, depth);
      var rest := MinimaxPlayer.LoopFrames(g, s, ms, k + 1, 1, depth);
      assert n == cf + rest;
      if cf > 0 {
        HelperCheckMonotone(tm, t - n + 1, t - cf + 1);
      }
      ChildCompletes(g, tm, s, ms[k], 1, depth, true, alpha, beta, t);
      var c := AlphaBeta.Child(g, tm, s, ms[k], 1, depth, true, alpha, beta, t);
      var bi' := if Lt(best, c.value) then k else bi;
      var best' := if Lt(best, c.value) then c.value else best;
      if rest > 0 {
        HelperCheckMonotone(tm, t - n + 1, c.left - rest + 1);
      }
      if !Le(beta, best') {
        RootLoopCompletes(g, tm, s, ms, depth, k + 1, bi', best', Max(alpha, best'), beta, c.left);
      }
    }
  }

  /** `alphabeta` completes when the entry check passes and the helper check
      would still pass once every frame below the root that minimax opens
      has spent its tick; it then spends at most the ticks minimax spends. */
  lemma SearchCompletes<S, M>(g: Game<S, M>, tm: Timer, s: S, depth: nat, alpha: Score, beta: Score, t: int)
    requires depth >= 1 && !EntryExpired(tm, t)
    requires var n := MinimaxPlayer.RootFrames(g, s, depth);
      n == 1 || !HelperExpired(tm, t - n + 1)
    ensures var r := AlphaBeta.Search(g, tm, s, depth, alpha, beta, t);
      r.Done? && r.left >= t - MinimaxPlayer.RootFrames(g, s, depth)
  {
    var ms := g.moves(s);
    if |ms| > 0 {
      RootLoopCompletes(g, tm, s, ms, depth, 0, 0, Loss, alpha, beta, t - 1);
    }
  }

  /** With the 1x margin of the competition player, alpha-beta completes
      whenever plain minimax does on the same clock, and then both return
      the same move. */
  lemma CompletesWhenMinimaxDoes<S, M>(g: Game<S, M>, T: nat, s: S, depth: nat, t: int)
    requires depth >= 1 && MinimaxPlayer.Search(g, T, s, depth, t).Done?
    ensures AlphaBeta.Search(g, Timer(T, Single), s, depth, Loss, Win, t).Done?
    ensures AlphaBeta.Search(g, Timer(T, Single), s, depth, Loss, Win, t).value == MinimaxPlayer.Search(g, T, s, depth, t).value
  {
    SearchCompletes(g, Timer(T, Single), s, depth, Loss, Win, t);
    AlphaBetaIsMinimax(g, Timer(T, Single), s, depth, t);
  }
}

=== FILE: argmax.dfy ===
/**
 The root loop's choice rule, on a sequence of scores: start from index 0
 with -inf and move to a later index only on a strict improvement.
 */
module Argmax {
  import opened Scores

  /** `i` is the first index holding a maximal score. */
  ghost predicate IsFirstMax(vals: seq<Score>, i: int) {
    && 0 <= i < |vals|
    && (forall j :: 0 <= j < |vals| ==> Le(vals[j], vals[i]))
    && (forall j :: 0 <= j < i ==> Lt(vals[j], vals[i]))
  }

  /** The scan of `vals[k..]` with running best index `bi` and score `best`. */
  function FirstBest(vals: seq<Score>, k: nat, bi: nat, best: Score): (r: nat)
    requires k <= |vals| && bi < |vals|
    ensures r < |vals|
    decreases |vals| - k
  {
    if k == |vals| then bi
    else if Lt(best, vals[k]) then FirstBest(vals, k + 1, k, vals[k])
    else FirstBest(vals, k + 1, bi, best)
  }

  /** What the scan keeps true after looking at `vals[..k]`. */
  ghost predicate ScanInvariant(vals: seq<Score>, k: nat, bi: nat, best: Score) {
    && k <= |vals| && bi < |vals|
    && (bi < k || bi == 0)
    && (best == vals[bi] || (bi == 0 && best == Loss))
    && (forall j :: 0 <= j < k ==> Le(vals[j], best))
    && (forall j :: 0 <= j < bi ==> Lt(vals[j], best))
  }

  lemma {:induction false} FirstBestFromInvariant(vals: seq<Score>, k: nat, bi: nat, best: Score)
    requires ScanInvariant(vals, k, bi, best)
    ensures IsFirstMax(vals, FirstBest(vals, k, bi, best))
    decreases |vals| - k
  {
    if k == |vals| {
    } else if Lt(best, vals[k]) {
      forall j | 0 <= j < k + 1
        ensures Le(vals[j], vals[k])
      {
        if j < k {
          LtIsStrictTotalOrder(vals[j], best, vals[k]);
          LeTransitive(vals[j], best, vals[k]);
        }
      }
      forall j | 0 <= j < k
        ensures Lt(vals[j], vals[k])
      {
        LtIsStrictTotalOrder(vals[j], best, vals[k]);
      }
      FirstBestFromInvariant(vals, k + 1, k, vals[k]);
    } else {
      FirstBestFromInvariant(vals, k + 1, bi, best);
    }
  }

  /** The root choice is the first maximiser of the move scores. */
  lemma FirstBestIsFirstMax(vals: seq<Score>)
    requires |vals| > 0
    ensures IsFirstMax(vals, FirstBest(vals, 0, 0, Loss))
  {
    FirstBestFromInvariant(vals, 0, 0, Loss);
  }

  /** Once the running best is +inf nothing can replace it. */
  lemma {:induction false} FirstBestKeepsWin(vals: seq<Score>, k: nat, bi: nat)
    requires k <= |vals| && bi < |vals|
    ensures FirstBest(vals, k, bi, Win) == bi
    decreases |vals| - k
  {
    if k < |vals| {
      FirstBestKeepsWin(vals, k + 1, bi);
    }
  }
}

=== FILE: board.dfy ===
/**
 The board features the evaluation heuristics look at: cells, the wall
 lists and corner list built from the board's width and height, membership
 in them, and the blank-cell percentage.

 Cells are (row, column) pairs as the agents use them: the first wall list
 `[(0, i) for i in range(width)]` runs along row 0 over all columns.
 */
module Board {

  datatype Cell = Cell(row: int, col: int)

  /** What an evaluation function reads from a board for one player: the
      board size and its number of blank cells, whether the player has lost
      or won, and the legal moves of the player and of the opponent. */
  datatype Position = Position(width: nat, height: nat, blanks: nat, loser: bool, winner: bool,
                               own: seq<Cell>, opp: seq<Cell>)

  /** The four wall lists, as the heuristics build them. The third and
      fourth lists use `width - 1` as a row and `height - 1` as a column, so
      they are the bottom and right edges only on a square board. */
  function Walls(width: nat, height: nat): (walls: seq<seq<Cell>>)
    ensures |walls| == 4
    ensures |walls[0]| == |walls[2]| == width && |walls[1]| == |walls[3]| == height
    ensures forall i :: 0 <= i < width ==> walls[0][i] == Cell(0, i) && walls[2][i] == Cell(width - 1, i)
    ensures forall i :: 0 <= i < height ==> walls[1][i] == Cell(i, 0) && walls[3][i] == Cell(i, height - 1)
  {
    [ seq(width, i => Cell(0, i)),
      seq(height, i => Cell(i, 0)),
      seq(width, i => Cell(width - 1, i)),
      seq(height, i => Cell(i, height - 1)) ]
  }

  /** The corner list `[(0, 0), (0, w-1), (h-1, 0), (h-1, w-1)]`. */
  function Corners(width: nat, height: nat): (corners: seq<Cell>)
    ensures |corners| == 4 && Cell(0, 0) in corners
    ensures forall c :: c in corners <==> (c.row == 0 || c.row == height - 1) && (c.col == 0 || c.col == width - 1)
  {
    [Cell(0, 0), Cell(0, width - 1), Cell(height - 1, 0), Cell(height - 1, width - 1)]
  }

  /** `is_near_walls`: scan the wall lists in order and answer true at the
      first one containing the move. */
  function IsNearWalls(move: Cell, walls: seq<seq<Cell>>): (r: bool)
    ensures r <==> exists i :: 0 <= i < |walls| && move in walls[i]
  {
    if |walls| == 0 then false
    else if move in walls[0] then true
    else
      var r := IsNearWalls(move, walls[1..]);
      assert forall i :: 1 <= i < |walls| ==> walls[i] == walls[1..][i - 1];
      r
  }

  /** `is_in_corners`: plain membership. */
  function IsInCorners(move: Cell, corners: seq<Cell>): (r: bool)
    ensures r <==> exists i :: 0 <= i < |corners| && corners[i] == move
  {
    move in corners
  }

  /** A cell of a `width` x `height` board that lies on its border. */
  ghost predicate OnEdge(c: Cell, width: nat, height: nat) {
    && 0 <= c.row < height && 0 <= c.col < width
    && (c.row == 0 || c.col == 0 || c.row == height - 1 || c.col == width - 1)
  }

  /** Which cells the wall lists contain, in board terms. */
  lemma {:induction false} NearWallsIff(c: Cell, width: nat, height: nat)
    ensures IsNearWalls(c, Walls(width, height)) <==>
      || (c.row == 0 && 0 <= c.col < width)
      || (c.col == 0 && 0 <= c.row < height)
      || (c.row == width - 1 && 0 <= c.col < width)
      || (c.col == height - 1 && 0 <= c.row < height)
  {
    var w := Walls(width, height);
    if c.row == 0 && 0 <= c.col < width {
      assert w[0][c.col] == c;
    } else if c.col == 0 && 0 <= c.row < height {
      assert w[1][c.row] == c;
    } else if c.row == width - 1 && 0 <= c.col < width {
      assert w[2][c.col] == c;
    } else if c.col == height - 1 && 0 <= c.row < height {
      assert w[3][c.row] == c;
    }
  }

  /** On a square board the wall lists hold exactly the border cells. */
  lemma SquareWallsAreTheBorder(c: Cell, n: nat)
    requires 0 <= c.row < n && 0 <= c.col < n
    ensures IsNearWalls(c, Walls(n, n)) <==> OnEdge(c, n, n)
  {
    NearWallsIff(c, n, n);
  }

  /** On a 3-wide, 5-high board the wall lists miss the border cell (4, 1)
      and contain the inner cell (2, 1). */
  lemma NonSquareWallsMissTheBorder()
    ensures OnEdge(Cell(4, 1), 3, 5) && !IsNearWalls(Cell(4, 1), Walls(3, 5))
    ensures !OnEdge(Cell(2, 1), 3, 5) && IsNearWalls(Cell(2, 1), Walls(3, 5))
  {
    NearWallsIff(Cell(4, 1), 3, 5);
    NearWallsIff(Cell(2, 1), 3, 5);
  }

  /** On a non-empty square board every corner is in some wall list, so a
      heuristic that tests walls before corners never reaches its corner
      branch there. */
  lemma SquareCornersAreNearWalls(c: Cell, n: nat)
    requires n >= 1 && c in Corners(n, n)
    ensures IsNearWalls(c, Walls(n, n))
  {
    NearWallsIff(c, n, n);
  }

  /** `percent_occupied`: the share of BLANK cells, in whole percent
      (despite its name). The float expression `int(b / (w*h) * 100)` is
      modelled as exact integer division. */
  function PercentBlank(blanks: nat, width: nat, height: nat): (pct: int)
    requires width * height > 0
    ensures pct * (width * height) <= 100 * blanks < (pct + 1) * (width * height)
    ensures blanks <= width * height ==> 0 <= pct <= 100
  {
    (100 * blanks) / (width * height)
  }
}

=== FILE: deepening.dfy ===
/**
 The iterative-deepening `get_move` of `AlphaBetaPlayer` and
 `CustomPlayer`: search at depth 1, 2, 3, ... with alpha-beta, append each
 completed result to `best_moves` (which starts as [(-2, -2)]), and on the
 first timeout return the last element of that list.

 The loop is `while True` in the agents; it ends because every completed
 iteration spends at least one tick and an iteration entered below the
 threshold times out at once.
 */
module Deepening {
  import opened Scores
  import opened Games
  import opened GameTree
  import AlphaBeta
  import AlphaBetaProofs
  import MinimaxPlayer

  /** How far the clock is above the entry threshold: the loop's measure. */
  function Slack(tm: Timer, t: int): nat {
    if t < tm.threshold then 0 else t - tm.threshold + 1
  }

  /** The loop from depth `depth` with the results `bestMoves` so far; it
      returns the final list. */
  function Deepen<S, M>(g: Game<S, M>, tm: Timer, s: S, depth: nat, t: int, bestMoves: seq<Reply<M>>): (h: seq<Reply<M>>)
    requires depth >= 1
    ensures |h| >= |bestMoves| && h[..|bestMoves|] == bestMoves
    decreases Slack(tm, t)
  {
    match AlphaBeta.Search(g, tm, s, depth, Loss, Win, t)
    case Interrupted => bestMoves
    case Done(mv, left) => Deepen(g, tm, s, depth + 1, left, bestMoves + [mv])
  }

  /** The list of results once the loop has stopped. */
  function History<S, M>(g: Game<S, M>, tm: Timer, s: S, t: int): seq<Reply<M>> {
    Deepen(g, tm, s, 1, t, [Placeholder])
  }

  /** How many depths completed before the first timeout. */
  function CompletedDepths<S, M>(g: Game<S, M>, tm: Timer, s: S, t: int): nat {
    |History(g, tm, s, t)| - 1
  }

  /** The shape of `best_moves`: the placeholder, then the completed depths
      1, 2, ... in order, each holding the minimax move at that depth. */
  ghost predicate WellFormedHistory<S, M>(g: Game<S, M>, s: S, h: seq<Reply<M>>) {
    && |h| >= 1 && h[0] == Placeholder
    && forall d :: 1 <= d < |h| ==> h[d] == BestMove(g, s, d)
  }

  lemma {:induction false} DeepenKeepsHistory<S, M>(g: Game<S, M>, tm: Timer, s: S, depth: nat, t: int, bestMoves: seq<Reply<M>>)
    requires depth >= 1 && |bestMoves| == depth
    requires WellFormedHistory(g, s, bestMoves)
    ensures WellFormedHistory(g, s, Deepen(g, tm, s, depth, t, bestMoves))
    decreases Slack(tm, t)
  {
    AlphaBetaProofs.AlphaBetaIsMinimax(g, tm, s, depth, t);
    match AlphaBeta.Search(g, tm, s, depth, Loss, Win, t)
    case Interrupted =>
    case Done(mv, left) =>
      var next := bestMoves + [mv];
      assert WellFormedHistory(g, s, next) by {
        forall d | 1 <= d < |next|
          ensures next[d] == BestMove(g, s, d)
        {
          if d < |bestMoves| {
            assert next[d] == bestMoves[d];
          }
        }
      }
      DeepenKeepsHistory(g, tm, s, depth + 1, left, next);
  }

  /** Only completed iterations enter the list: every entry after the
      placeholder is the minimax move of its depth. */
  lemma HistoryIsWellFormed<S, M>(g: Game<S, M>, tm: Timer, s: S, t: int)
    ensures WellFormedHistory(g, s, History(g, tm, s, t))
  {
    DeepenKeepsHistory(g, tm, s, 1, t, [Placeholder]);
  }

  /** The placeholder survives exactly when the depth-1 search times out. */
  lemma {:induction false} PlaceholderIffFirstDepthTimesOut<S, M>(g: Game<S, M>, tm: Timer, s: S, t: int)
    ensures |History(g, tm, s, t)| == 1 <==> AlphaBeta.Search(g, tm, s, 1, Loss, Win, t).Interrupted?
  {
    match AlphaBeta.Search(g, tm, s, 1, Loss, Win, t)
    case Interrupted =>
    case Done(mv, left) =>
      var h := Deepen(g, tm, s, 2, left, [Placeholder, mv]);
      assert h[..2] == [Placeholder, mv];
  }

  /** The clock reading at which the loop from `depth` starts its last,
      interrupted, search. */
  function StopClock<S, M>(g: Game<S, M>, tm: Timer, s: S, depth: nat, t: int): (u: int)
    requires depth >= 1
    ensures u <= t
    decreases Slack(tm, t)
  {
    match AlphaBeta.Search(g, tm, s, depth, Loss, Win, t)
    case Interrupted => t
    case Done(_, left) => StopClock(g, tm, s, depth + 1, left)
  }

  /** The loop stops only on a timeout: the depth after the last completed
      one was searched, at a clock reading no later than the start, and
      was interrupted. */
  lemma {:induction false} DeepenStopsOnTimeout<S, M>(g: Game<S, M>, tm: Timer, s: S, depth: nat, t: int, bestMoves: seq<Reply<M>>)
    requires depth >= 1
    ensures var h := Deepen(g, tm, s, depth, t, bestMoves);
      AlphaBeta.Search(g, tm, s, depth + |h| - |bestMoves|, Loss, Win, StopClock(g, tm, s, depth, t)).Interrupted?
    decreases Slack(tm, t)
  {
    match AlphaBeta.Search(g, tm, s, depth, Loss, Win, t)
    case Interrupted =>
    case Done(mv, left) =>
      DeepenStopsOnTimeout(g, tm, s, depth + 1, left, bestMoves + [mv]);
  }

  /** The deepest completed depth is followed by a depth that timed out. */
  lemma NextDepthTimedOut<S, M>(g: Game<S, M>, tm: Timer, s: S, t: int)
    ensures StopClock(g, tm, s, 1, t) <= t
    ensures AlphaBeta.Search(g, tm, s, CompletedDepths(g, tm, s, t) + 1, Loss, Win, StopClock(g, tm, s, 1, t)).Interrupted?
  {
    DeepenStopsOnTimeout(g, tm, s, 1, t, [Placeholder]);
  }

  /** With enough clock the loop gets past depth 1: when the depth-2
      search, started one tick after entry, would pass all its checks, at
      least two depths complete and the reply is a depth-2 or deeper
      minimax move. */
  lemma {:induction false} SecondDepthCompletes<S, M>(g: Game<S, M>, tm: Timer, s: S, t: int)
    requires !EntryExpired(tm, t - 1)
    requires var n := MinimaxPlayer.RootFrames(g, s, 2);
      n == 1 || !HelperExpired(tm, t - n)
    ensures CompletedDepths(g, tm, s, t) >= 2
  {
    AlphaBetaProofs.SearchCompletes(g, tm, s, 1, Loss, Win, t);
    var r1 := AlphaBeta.Search(g, tm, s, 1, Loss, Win, t);
    AlphaBetaProofs.SearchCompletes(g, tm, s, 2, Loss, Win, t - 1);
    var r2 := AlphaBeta.Search(g, tm, s, 2, Loss, Win, t - 1);
    assert r1 == Done(r1.value, t - 1);
    assert [Placeholder] + [r1.value] == [Placeholder, r1.value];
    assert History(g, tm, s, t) == Deepen(g, tm, s, 2, t - 1, [Placeholder, r1.value]);
    assert [Placeholder, r1.value] + [r2.value] == [Placeholder, r1.value, r2.value];
    assert History(g, tm, s, t) == Deepen(g, tm, s, 3, r2.left, [Placeholder, r1.value, r2.value]);
  }

  /** `get_move`: the last element of `best_moves`, which is the minimax
      move of the deepest completed depth, or (-2, -2) when none completed.
      A clock already below the threshold yields (-2, -2). */
  function GetMove<S, M>(g: Game<S, M>, tm: Timer, s: S, t: int): (r: Reply<M>)
    ensures var k := CompletedDepths(g, tm, s, t);
      r == (if k == 0 then Placeholder else BestMove(g, s, k))
    ensures r == Placeholder <==> AlphaBeta.Search(g, tm, s, 1, Loss, Win, t).Interrupted?
    ensures r == Placeholder <==> EntryExpired(tm, t)
    ensures !EntryExpired(tm, t) && |g.moves(s)| > 0 ==> r.Play?
    ensures r.Play? ==> r.move in g.moves(s)
    ensures r == NoMove ==> |g.moves(s)| == 0
  {
    var h := History(g, tm, s, t);
    HistoryIsWellFormed(g, tm, s, t);
    PlaceholderIffFirstDepthTimesOut(g, tm, s, t);
    h[|h| - 1]
  }

  /** `AlphaBetaPlayer.get_move`: helper frames keep a 1.5x margin. */
  function AlphaBetaPlayerMove<S, M>(g: Game<S, M>, threshold: nat, s: S, t: int): (r: Reply<M>)
    ensures t < threshold ==> r == Placeholder
    ensures var k := CompletedDepths(g, Timer(threshold, OneAndHalf), s, t);
      r == (if k == 0 then Placeholder else BestMove(g, s, k))
  {
    GetMove(g, Timer(threshold, OneAndHalf), s, t)
  }

  /** `CustomPlayer.get_move`: every frame checks the plain threshold. */
  function CustomPlayerMove<S, M>(g: Game<S, M>, threshold: nat, s: S, t: int): (r: Reply<M>)
    ensures t < threshold ==> r == Placeholder
    ensures var k := CompletedDepths(g, Timer(threshold, Single), s, t);
      r == (if k == 0 then Placeholder else BestMove(g, s, k))
  {
    GetMove(g, Timer(threshold, Single), s, t)
  }
}

=== FILE: evaluators.dfy ===
/**
 The stand-alone evaluation functions: chase the opponent, near walls, in
 corners, and the 0.3 / 0.7 blend of the last two.

 The wall and corner evaluators tally each side's moves separately into a
 cumulative score and a moves-left count, and return the difference of the
 two tallies. Their phase tests are strict on both sides of a threshold,
 so at exactly 50 or 85 percent (walls) or 60 percent (corners) a move that
 is on a wall or corner falls through to the moves-left branch.
 */
module Evaluators {
  import opened Scores
  import opened Board
  import opened Heuristics

  /** `evaluator_aggresively_chase_opponent`: |own - 2 * opp|. */
  function ChaseOpponent(p: Position): (r: Score)
    ensures r == Loss <==> p.loser
    ensures r == Win <==> !p.loser && p.winner
    ensures r.Finite? ==> r.v >= 0.0
    ensures r.Finite? ==> (r.v == 0.0 <==> |p.own| == 2 * |p.opp|)
    ensures r.Finite? ==> r.v == (|p.own| - 2 * |p.opp|) as real || r.v == -((|p.own| - 2 * |p.opp|) as real)
  {
    var d := |p.own| - 2 * |p.opp|;
    Guarded(p, (if d < 0 then -d else d) as real)
  }

  /** A side's cumulative score and moves-left count. */
  datatype Tally = Tally(cum: int, left: int) {
    function Plus(other: Tally): Tally {
      Tally(cum + other.cum, left + other.left)
    }
  }

  /** One move of `evaluator_check_near_walls`. */
  function WallStep(near: bool, pct: int): (r: Tally)
    ensures r in {Tally(10, 0), Tally(-20, 0), Tally(-30, 0), Tally(0, 5)}
    ensures r == Tally(0, 5) <==> !near || pct == 50 || pct == 85
    ensures r == Tally(10, 0) <==> near && pct < 50
    ensures r == Tally(-20, 0) <==> near && 50 < pct < 85
    ensures r == Tally(-30, 0) <==> near && pct > 85
  {
    if near && pct < 50 then Tally(10, 0)
    else if near && pct > 50 && pct < 85 then Tally(-20, 0)
    else if near && pct > 85 then Tally(-30, 0)
    else Tally(0, 5)
  }

  /** The near-walls tally of one side's moves. */
  function WallTally(moves: seq<Cell>, walls: seq<seq<Cell>>, pct: int): (r: Tally)
    ensures -30 * |moves| <= r.cum <= 10 * |moves|
    ensures 0 <= r.left <= 5 * |moves|
    ensures -30 * |moves| <= r.cum + r.left <= 10 * |moves|
  {
    if |moves| == 0 then Tally(0, 0)
    else WallStep(IsNearWalls(moves[0], walls), pct).Plus(WallTally(moves[1..], walls, pct))
  }

  /** The finite value of the near-walls evaluator. */
  function NearWallsValue(own: seq<Cell>, opp: seq<Cell>, walls: seq<seq<Cell>>, pct: int): (r: real)
    ensures -30.0 * (|own| + |opp|) as real <= r <= 30.0 * (|own| + |opp|) as real
  {
    var o := WallTally(own, walls, pct);
    var x := WallTally(opp, walls, pct);
    (o.cum - x.cum) as real + (o.left - x.left) as real
  }

  /** `evaluator_check_near_walls`. */
  function NearWalls(p: Position): (r: Score)
    requires p.width * p.height > 0
    ensures r == Loss <==> p.loser
    ensures r == Win <==> !p.loser && p.winner
    ensures r.Finite? ==> -30.0 * (|p.own| + |p.opp|) as real <= r.v <= 30.0 * (|p.own| + |p.opp|) as real
  {
    var walls := Walls(p.width, p.height);
    var pct := PercentBlank(p.blanks, p.width, p.height);
    Guarded(p, NearWallsValue(p.own, p.opp, walls, pct))
  }

  /** One more move for the player raises the near-walls value by that
      move's contribution, score plus moves left; one more for the opponent
      lowers it by the same amount. */
  lemma NearWallsValueStep(c: Cell, own: seq<Cell>, opp: seq<Cell>, walls: seq<seq<Cell>>, pct: int)
    ensures var st := WallStep(IsNearWalls(c, walls), pct);
      && NearWallsValue([c] + own, opp, walls, pct) == NearWallsValue(own, opp, walls, pct) + (st.cum + st.left) as real
      && NearWallsValue(own, [c] + opp, walls, pct) == NearWallsValue(own, opp, walls, pct) - (st.cum + st.left) as real
  {
  }

  /** At exactly 50 or 85 percent every move, on a wall or not, counts 5
      towards the moves left. */
  lemma {:induction false} WallThresholdsFallThrough(moves: seq<Cell>, walls: seq<seq<Cell>>, pct: int)
    requires pct == 50 || pct == 85
    ensures WallTally(moves, walls, pct) == Tally(0, 5 * |moves|)
  {
    if |moves| > 0 {
      WallThresholdsFallThrough(moves[1..], walls, pct);
    }
  }

  /** Moves off the walls only ever count towards the moves left. */
  lemma {:induction false} OffWallMovesCountFive(moves: seq<Cell>, walls: seq<seq<Cell>>, pct: int)
    requires forall i :: 0 <= i < |moves| ==> !IsNearWalls(moves[i], walls)
    ensures WallTally(moves, walls, pct) == Tally(0, 5 * |moves|)
  {
    if |moves| > 0 {
      OffWallMovesCountFive(moves[1..], walls, pct);
    }
  }

  /** Exchanging the two move lists negates the near-walls value. */
  lemma NearWallsAntisymmetric(p: Position)
    requires p.width * p.height > 0 && !p.loser && !p.winner
    ensures NearWalls(SwapMoves(p)).v == -NearWalls(p).v
  {
  }

  /** One move of `evaluator_check_in_corners`. */
  function CornerStep(corner: bool, pct: int): (r: Tally)
    ensures r in {Tally(15, 0), Tally(-40, 0), Tally(0, 10)}
    ensures r == Tally(0, 10) <==> !corner || pct == 60
    ensures r == Tally(15, 0) <==> corner && pct < 60
  {
    if corner && pct < 60 then Tally(15, 0)
    else if corner && pct > 60 then Tally(-40, 0)
    else Tally(0, 10)
  }

  /** The in-corners tally of one side's moves. */
  function CornerTally(moves: seq<Cell>, corners: seq<Cell>, pct: int): (r: Tally)
    ensures -40 * |moves| <= r.cum <= 15 * |moves|
    ensures 0 <= r.left <= 10 * |moves|
    ensures -40 * |moves| <= r.cum + r.left <= 15 * |moves|
  {
    if |moves| == 0 then Tally(0, 0)
    else CornerStep(IsInCorners(moves[0], corners), pct).Plus(CornerTally(moves[1..], corners, pct))
  }

  /** The finite value of the in-corners evaluator. */
  function InCornersValue(own: seq<Cell>, opp: seq<Cell>, corners: seq<Cell>, pct: int): (r: real)
    ensures -40.0 * (|own| + |opp|) as real <= r <= 40.0 * (|own| + |opp|) as real
  {
    var o := CornerTally(own, corners, pct);
    var x := CornerTally(opp, corners, pct);
    (o.cum - x.cum) as real + (o.left - x.left) as real
  }

  /** `evaluator_check_in_corners`. */
  function InCorners(p: Position): (r: Score)
    requires p.width * p.height > 0
    ensures r == Loss <==> p.loser
    ensures r == Win <==> !p.loser && p.winner
    ensures r.Finite? ==> -40.0 * (|p.own| + |p.opp|) as real <= r.v <= 40.0 * (|p.own| + |p.opp|) as real
  {
    var corners := Corners(p.width, p.height);
    var pct := PercentBlank(p.blanks, p.width, p.height);
    Guarded(p, InCornersValue(p.own, p.opp, corners, pct))
  }

  /** One more move for the player raises the in-corners value by that
      move's contribution; one more for the opponent lowers it. */
  lemma InCornersValueStep(c: Cell, own: seq<Cell>, opp: seq<Cell>, corners: seq<Cell>, pct: int)
    ensures var st := CornerStep(IsInCorners(c, corners), pct);
      && InCornersValue([c] + own, opp, corners, pct) == InCornersValue(own, opp, corners, pct) + (st.cum + st.left) as real
      && InCornersValue(own, [c] + opp, corners, pct) == InCornersValue(own, opp, corners, pct) - (st.cum + st.left) as real
  {
  }

  /** At exactly 60 percent every move counts 10 towards the moves left. */
  lemma {:induction false} CornerThresholdFallsThrough(moves: seq<Cell>, corners: seq<Cell>)
    ensures CornerTally(moves, corners, 60) == Tally(0, 10 * |moves|)
  {
    if |moves| > 0 {
      CornerThresholdFallsThrough(moves[1..], corners);
    }
  }

  /** Exchanging the two move lists negates the in-corners value. */
  lemma InCornersAntisymmetric(p: Position)
    requires p.width * p.height > 0 && !p.loser && !p.winner
    ensures InCorners(SwapMoves(p)).v == -InCorners(p).v
  {
  }

  /** `evaluator_check_near_walls_and_corners`. */
  function NearWallsAndCorners(p: Position): (r: Score)
    requires p.width * p.height > 0
    ensures r == Loss <==> p.loser
    ensures r == Win <==> !p.loser && p.winner
  {
    var walls := Walls(p.width, p.height);
    var corners := Corners(p.width, p.height);
    var pct := PercentBlank(p.blanks, p.width, p.height);
    Guarded(p, 0.3 * NearWallsValue(p.own, p.opp, walls, pct) + 0.7 * InCornersValue(p.own, p.opp, corners, pct))
  }

  /** The blend is 0.3 times the near-walls score plus 0.7 times the
      in-corners score, with -inf and +inf absorbing as in float
      arithmetic (both components always carry the same sentinel). */
  lemma BlendOfComponents(p: Position)
    requires p.width * p.height > 0
    ensures NearWalls(p).Finite? <==> InCorners(p).Finite?
    ensures NearWalls(p).Finite? ==>
      NearWallsAndCorners(p) == Finite(0.3 * NearWalls(p).v + 0.7 * InCorners(p).v)
    ensures !NearWalls(p).Finite? ==> NearWallsAndCorners(p) == NearWalls(p) == InCorners(p)
  {
  }
}

=== FILE: games.dfy ===
/**
 The interfaces the search consumes: an abstract two-player game, the
 replies a player gives, the outcome of a frame that may be cut short by
 the clock, and the clock itself.
 */
module Games {
  import opened Scores

  /** An opaque game as the search sees it: the legal moves of the player to
      move, the successor state after a move, and the pluggable evaluation
      function, already fixed to the searching player's point of view (the
      agents always call `self.score(state, self)`). */
  datatype Game<!S, !M> = Game(moves: S -> seq<M>, forecast: (S, M) -> S, score: S -> Score)

  /** What `get_move` hands back: a legal move, the (-1, -1) "no legal move"
      reply, or the (-2, -2) placeholder of an iterative deepening search
      whose first depth never completed. */
  datatype Reply<M> = Play(move: M) | NoMove | Placeholder

  /** The result of a search frame: a value together with the clock reading
      when the frame returned, or the `SearchTimeout` unwinding. */
  datatype Outcome<T> = Done(value: T, left: int) | Interrupted

  /** The safety margin of the helper frames relative to the entry frame. */
  datatype Margin = Single | OneAndHalf

  /** `TIMER_THRESHOLD` (milliseconds) and the margin its helpers apply. */
  datatype Timer = Timer(threshold: nat, margin: Margin)

  /** The entry frame's check: `time_left() < TIMER_THRESHOLD`. */
  predicate EntryExpired(tm: Timer, t: int) {
    t < tm.threshold
  }

  /** A helper frame's check, `time_left() < TIMER_THRESHOLD` or
      `time_left() < TIMER_THRESHOLD * 1.5` (the latter as 2t < 3T). */
  predicate HelperExpired(tm: Timer, t: int) {
    match tm.margin
    case Single => t < tm.threshold
    case OneAndHalf => 2 * t < 3 * tm.threshold
  }

  /** A helper frame is never more lenient than the entry frame. */
  lemma HelperMarginIsWider(tm: Timer, t: int)
    ensures EntryExpired(tm, t) ==> HelperExpired(tm, t)
    ensures tm.margin == Single ==> (HelperExpired(tm, t) <==> EntryExpired(tm, t))
  {
  }
}

=== FILE: gametree.dfy ===
/**
 Depth-limited minimax values of an abstract game, without any clock: the
 reference both searches are measured against.

 A layer is identified by its depth `cur` (the root's children are scored
 at depth 1) and its polarity `max`. A child of a layer at depth `cur` is
 scored by the evaluation function when `cur == limit`, and otherwise is
 the value of the opposite layer at `cur + 1`.
 */
module GameTree {
  import opened Scores
  import opened Games
  import opened Argmax

  /** The value of a layer: the sentinel when it has no legal moves,
      otherwise the best of its children's values. */
  function Value<S, M>(g: Game<S, M>, s: S, cur: nat, limit: nat, max: bool): Score
    requires 1 <= cur <= limit
    decreases limit - cur, 1, 0
  {
    var ms := g.moves(s);
    if |ms| == 0 then Sentinel(max)
    else Fold(g, s, ms, 0, cur, limit, max, Sentinel(max))
  }

  /** The loop of a layer over `ms[k..]` with running best `best`. */
  function Fold<S, M>(g: Game<S, M>, s: S, ms: seq<M>, k: nat, cur: nat, limit: nat, max: bool, best: Score): Score
    requires 1 <= cur <= limit && k <= |ms|
    decreases limit - cur, 0, |ms| - k
  {
    if k == |ms| then best
    else Fold(g, s, ms, k + 1, cur, limit, max, Improve(max, best, ChildValue(g, s, ms[k], cur, limit, max)))
  }

  /** The value of playing `m` in a layer at depth `cur`. */
  function ChildValue<S, M>(g: Game<S, M>, s: S, m: M, cur: nat, limit: nat, max: bool): Score
    requires 1 <= cur <= limit
    decreases limit - cur, 0, 0
  {
    var next := g.forecast(s, m);
    if cur == limit then g.score(next) else Value(g, next, cur + 1, limit, !max)
  }

  /** The values of the root's moves at search depth `depth`. */
  function RootValues<S, M>(g: Game<S, M>, s: S, depth: nat): (vals: seq<Score>)
    requires depth >= 1
    ensures |vals| == |g.moves(s)|
    ensures forall i :: 0 <= i < |vals| ==>
      vals[i] == (if depth == 1 then g.score(g.forecast(s, g.moves(s)[i]))
                  else Value(g, g.forecast(s, g.moves(s)[i]), 2, depth, false))
  {
    var ms := g.moves(s);
    seq(|ms|, i requires 0 <= i < |ms| => ChildValue(g, s, ms[i], 1, depth, true))
  }

  /** The move depth-limited minimax chooses at the root. */
  function BestMove<S, M>(g: Game<S, M>, s: S, depth: nat): (r: Reply<M>)
    requires depth >= 1
    ensures r == NoMove <==> |g.moves(s)| == 0
    ensures r != Placeholder
    ensures r.Play? ==> exists i :: IsFirstMax(RootValues(g, s, depth), i) && g.moves(s)[i] == r.move
  {
    var ms := g.moves(s);
    if |ms| == 0 then NoMove
    else
      var vals := RootValues(g, s, depth);
      var i := FirstBest(vals, 0, 0, Loss);
      FirstBestIsFirstMax(vals);
      Play(ms[i])
  }

  /** The loop of a layer returns its starting best or one of the child
      values it looked at, and it bounds all of them in its direction. */
  lemma {:induction false} FoldIsExtremum<S, M>(g: Game<S, M>, s: S, ms: seq<M>, k: nat, cur: nat, limit: nat, max: bool, best: Score)
    requires 1 <= cur <= limit && k <= |ms|
    ensures var r := Fold(g, s, ms, k, cur, limit, max, best);
      && (max ==> Le(best, r) && forall j :: k <= j < |ms| ==> Le(ChildValue(g, s, ms[j], cur, limit, max), r))
      && (!max ==> Le(r, best) && forall j :: k <= j < |ms| ==> Le(r, ChildValue(g, s, ms[j], cur, limit, max)))
      && (r == best || exists j :: k <= j < |ms| && r == ChildValue(g, s, ms[j], cur, limit, max))
    decreases |ms| - k
  {
    if k < |ms| {
      var v := ChildValue(g, s, ms[k], cur, limit, max);
      var b := Improve(max, best, v);
      FoldIsExtremum(g, s, ms, k + 1, cur, limit, max, b);
      var r := Fold(g, s, ms, k + 1, cur, limit, max, b);
      if max {
        LeTransitive(best, b, r);
        LeTransitive(v, b, r);
      } else {
        LeTransitive(r, b, best);
        LeTransitive(r, b, v);
      }
    }
  }

  /** A layer's value is the maximum (or minimum) of its children's values,
      or its sentinel when it has no legal moves. Layers alternate: the
      children of a maximising layer are minimising layers one ply deeper. */
  lemma ValueIsExtremum<S, M>(g: Game<S, M>, s: S, cur: nat, limit: nat, max: bool)
    requires 1 <= cur <= limit
    ensures var ms := g.moves(s); var r := Value(g, s, cur, limit, max);
      && (|ms| == 0 ==> r == (if max then Loss else Win))
      && (|ms| > 0 ==> exists j :: 0 <= j < |ms| && r == ChildValue(g, s, ms[j], cur, limit, max))
      && (max ==> forall j :: 0 <= j < |ms| ==> Le(ChildValue(g, s, ms[j], cur, limit, max), r))
      && (!max ==> forall j :: 0 <= j < |ms| ==> Le(r, ChildValue(g, s, ms[j], cur, limit, max)))
  {
    var ms := g.moves(s);
    if |ms| > 0 {
      FoldIsExtremum(g, s, ms, 0, cur, limit, max, Sentinel(max));
      var r := Value(g, s, cur, limit, max);
      if r == Sentinel(max) {
        // the sentinel bounds the first child from the other side, so that
        // child's value is the sentinel itself
        var v := ChildValue(g, s, ms[0], cur, limit, max);
        if max {
          LeAntisymmetric(v, Loss);
        } else {
          LeAntisymmetric(v, Win);
        }
      }
    }
  }

  /** A child scored at the search horizon is the evaluation of the
      successor state, from the searching player's point of view, whatever
      the layer's polarity. */
  lemma HorizonIsScored<S, M>(g: Game<S, M>, s: S, m: M, limit: nat, max: bool)
    requires limit >= 1
    ensures ChildValue(g, s, m, limit, limit, max) == g.score(g.forecast(s, m))
  {
  }

  /** With a single legal move, every search depth chooses that move. */
  lemma SingleMoveIsChosen<S, M>(g: Game<S, M>, s: S, depth: nat)
    requires depth >= 1 && |g.moves(s)| == 1
    ensures BestMove(g, s, depth) == Play(g.moves(s)[0])
  {
  }
}

=== FILE: heuristics.dfy ===
/**
 The evaluation functions of the agents: the open-move differentials and
 their `custom_score` presets, the time-variant differential, the
 look-ahead differentials (one of which is the competition agent's
 `custom_score`), and the wall- and corner-aware differential.

 Every one of them first answers -inf for a player who has lost and +inf
 for a player who has won, and only otherwise computes a finite formula.
 */
module Heuristics {
  import opened Scores
  import opened Board

  /** The sentinel discipline: -inf for a loser, else +inf for a winner,
      else the finite value `x`. */
  function Guarded(p: Position, x: real): (r: Score)
    ensures r == Loss <==> p.loser
    ensures r == Win <==> !p.loser && p.winner
    ensures r.Finite? <==> !p.loser && !p.winner
    ensures r.Finite? ==> r.v == x
  {
    if p.loser then Loss else if p.winner then Win else Finite(x)
  }

  /** The same position seen with the two move lists exchanged. */
  function SwapMoves(p: Position): Position {
    p.(own := p.opp, opp := p.own)
  }

  // ----- open-move differentials -----

  /** `score_differential_open_move`: own moves minus `aggressiveness`
      times the opponent's moves. */
  function OpenMoveDifferential(p: Position, aggressiveness: real): (r: Score)
    ensures r == Loss <==> p.loser
    ensures r == Win <==> !p.loser && p.winner
    ensures r.Finite? ==> r.v + aggressiveness * |p.opp| as real == |p.own| as real
  {
    Guarded(p, |p.own| as real - aggressiveness * |p.opp| as real)
  }

  /** `custom_score`: aggressiveness 1. */
  function CustomScore(p: Position): (r: Score)
    ensures r.Finite? ==> r.v == (|p.own| - |p.opp|) as real
  {
    OpenMoveDifferential(p, 1.0)
  }

  /** `custom_score_2`: aggressiveness 0.5. */
  function CustomScore2(p: Position): (r: Score)
    ensures r.Finite? ==> r.v == |p.own| as real - 0.5 * |p.opp| as real
  {
    OpenMoveDifferential(p, 0.5)
  }

  /** `custom_score_3`: aggressiveness 2.5. */
  function CustomScore3(p: Position): (r: Score)
    ensures r.Finite? ==> r.v == |p.own| as real - 2.5 * |p.opp| as real
  {
    OpenMoveDifferential(p, 2.5)
  }

  /** More own moves and fewer opponent moves never lower the open-move
      differential, for any non-negative aggressiveness. */
  lemma OpenMoveMonotone(p: Position, q: Position, aggressiveness: real)
    requires aggressiveness >= 0.0
    requires p.loser == q.loser && p.winner == q.winner
    requires |p.own| <= |q.own| && |q.opp| <= |p.opp|
    ensures Le(OpenMoveDifferential(p, aggressiveness), OpenMoveDifferential(q, aggressiveness))
  {
    assert aggressiveness * |q.opp| as real <= aggressiveness * |p.opp| as real;
  }

  /** On a position where the opponent can move, the three presets are
      strictly ordered by their aggressiveness. */
  lemma PresetsOrderedByAggressiveness(p: Position)
    requires !p.loser && !p.winner && |p.opp| > 0
    ensures Lt(CustomScore3(p), CustomScore(p)) && Lt(CustomScore(p), CustomScore2(p))
  {
  }

  /** `custom_score` is antisymmetric in the two move lists. */
  lemma CustomScoreAntisymmetric(p: Position)
    requires !p.loser && !p.winner
    ensures CustomScore(SwapMoves(p)).v == -CustomScore(p).v
  {
  }

  // ----- time-variant differential -----

  /** `score_time_variant_differential_open_move`: variant 1 weighs the
      opponent by 2.5 while fewer than half the cells are blank and by 0.5
      otherwise; any other variant does the opposite. */
  function TimeVariant(p: Position, variant: int): (r: Score)
    requires p.width * p.height > 0
    ensures r == Loss <==> p.loser
    ensures r == Win <==> !p.loser && p.winner
    ensures r.Finite? ==> r.v == |p.own| as real - 2.5 * |p.opp| as real || r.v == |p.own| as real - 0.5 * |p.opp| as real
  {
    var own := |p.own| as real;
    var opp := |p.opp| as real;
    var pct := PercentBlank(p.blanks, p.width, p.height);
    Guarded(p,
      if variant == 1 then
        (if pct < 50 then own - 2.5 * opp else own - 0.5 * opp)
      else
        (if pct < 50 then own - 0.5 * opp else own - 2.5 * opp))
  }

  /** The two variants pick opposite weights on every position: together
      they weigh the opponent by 3, and variant 1 uses 2.5 exactly when
      fewer than half the cells are blank. */
  lemma TimeVariantsAreMirrored(p: Position, other: int)
    requires p.width * p.height > 0 && other != 1 && !p.loser && !p.winner
    ensures TimeVariant(p, 1).v + TimeVariant(p, other).v == 2.0 * |p.own| as real - 3.0 * |p.opp| as real
    ensures (TimeVariant(p, 1).v == |p.own| as real - 2.5 * |p.opp| as real) <==>
      (PercentBlank(p.blanks, p.width, p.height) < 50 || |p.opp| == 0)
  {
  }

  // ----- look-ahead differentials -----

  /** `sum(len(game._Board__get_moves(move)) for move in cells)`, with the
      board's move generator given as `onward`. */
  function OnwardTotal(cells: seq<Cell>, onward: Cell -> nat): nat {
    if |cells| == 0 then 0 else onward(cells[0]) + OnwardTotal(cells[1..], onward)
  }

  /** The total bounds every one of its terms, and is zero exactly when
      no move leads anywhere. */
  lemma {:induction false} OnwardTotalBoundsTerms(cells: seq<Cell>, onward: Cell -> nat)
    ensures forall i :: 0 <= i < |cells| ==> onward(cells[i]) <= OnwardTotal(cells, onward)
    ensures (forall i :: 0 <= i < |cells| ==> onward(cells[i]) == 0) <==> OnwardTotal(cells, onward) == 0
  {
    if |cells| > 0 {
      OnwardTotalBoundsTerms(cells[1..], onward);
      assert forall i :: 1 <= i < |cells| ==> cells[i] == cells[1..][i - 1];
    }
  }

  /** `score_look_ahead_differential_move`: each side's move count times
      the moves available after its moves. */
  function LookAheadDifferential(p: Position, onward: Cell -> nat, aggressiveness: real): (r: Score)
    ensures r == Loss <==> p.loser
    ensures r == Win <==> !p.loser && p.winner
    ensures r.Finite? ==> r.v + aggressiveness * (|p.opp| * OnwardTotal(p.opp, onward)) as real
                          == (|p.own| * OnwardTotal(p.own, onward)) as real
  {
    Guarded(p, (|p.own| * OnwardTotal(p.own, onward)) as real
               - aggressiveness * (|p.opp| * OnwardTotal(p.opp, onward)) as real)
  }

  /** `score_look_ahead_agg`: only the opponent's side, negated. */
  function LookAheadAggressive(p: Position, onward: Cell -> nat): (r: Score)
    ensures r == Loss <==> p.loser
    ensures r == Win <==> !p.loser && p.winner
    ensures r.Finite? ==> r.v <= 0.0
  {
    Guarded(p, -((|p.opp| * OnwardTotal(p.opp, onward)) as real))
  }

  /** The aggressive variant is the differential of a player with no moves. */
  lemma AggressiveIsDifferentialWithoutOwnMoves(p: Position, onward: Cell -> nat)
    ensures LookAheadAggressive(p, onward) == LookAheadDifferential(p.(own := []), onward, 1.0)
  {
  }

  /** The competition agent's `custom_score`: the look-ahead differential
      with aggressiveness 1. */
  function CompetitionScore(p: Position, onward: Cell -> nat): (r: Score)
    ensures r == Loss <==> p.loser
    ensures r == Win <==> !p.loser && p.winner
    ensures r.Finite? <==> !p.loser && !p.winner
  {
    LookAheadDifferential(p, onward, 1.0)
  }

  /** The competition score is antisymmetric in the two move lists. */
  lemma CompetitionScoreAntisymmetric(p: Position, onward: Cell -> nat)
    requires !p.loser && !p.winner
    ensures CompetitionScore(SwapMoves(p), onward).v == -CompetitionScore(p, onward).v
  {
  }

  // ----- wall- and corner-aware differential -----

  /** Per-move contributions to the wall, corner and open-move tallies. */
  datatype Mix = Mix(wall: int, corner: int, open: int) {
    function Plus(other: Mix): Mix {
      Mix(wall + other.wall, corner + other.corner, open + other.open)
    }
  }

  /** One move: a wall move scores 10, -20 or -30 by phase; otherwise a
      corner move scores 15 or -40; otherwise it counts 10 open. */
  function AwareStep(c: Cell, walls: seq<seq<Cell>>, corners: seq<Cell>, pct: int): (r: Mix)
    ensures (r.wall != 0) <==> IsNearWalls(c, walls)
    ensures (r.corner != 0) <==> !IsNearWalls(c, walls) && IsInCorners(c, corners)
    ensures (r.open != 0) <==> !IsNearWalls(c, walls) && !IsInCorners(c, corners)
    ensures r.wall in {10, -20, -30, 0} && r.corner in {15, -40, 0} && r.open in {10, 0}
    ensures IsNearWalls(c, walls) ==> r.wall == (if pct < 30 then 10 else if pct < 60 then -20 else -30)
    ensures !IsNearWalls(c, walls) && IsInCorners(c, corners) ==> r.corner == (if pct < 60 then 15 else -40)
  {
    if IsNearWalls(c, walls) then
      if pct < 30 then Mix(10, 0, 0)
      else if 30 <= pct < 60 then Mix(-20, 0, 0)
      else Mix(-30, 0, 0)
    else if IsInCorners(c, corners) then
      if pct < 60 then Mix(0, 15, 0) else Mix(0, -40, 0)
    else Mix(0, 0, 10)
  }

  /** The tallies of one side's moves. */
  function AwareTally(moves: seq<Cell>, walls: seq<seq<Cell>>, corners: seq<Cell>, pct: int): (r: Mix)
    ensures -30 * |moves| <= r.wall <= 10 * |moves|
    ensures -40 * |moves| <= r.corner <= 15 * |moves|
    ensures 0 <= r.open <= 10 * |moves|
  {
    if |moves| == 0 then Mix(0, 0, 0)
    else AwareStep(moves[0], walls, corners, pct).Plus(AwareTally(moves[1..], walls, corners, pct))
  }

  /** `score_wall_corner_aware_differential_open_move`:
      0.3 * wall difference + 0.7 * corner difference + 1.0 * open difference. */
  function WallCornerAware(p: Position): (r: Score)
    requires p.width * p.height > 0
    ensures r == Loss <==> p.loser
    ensures r == Win <==> !p.loser && p.winner
    ensures r.Finite? <==> !p.loser && !p.winner
  {
    var walls := Walls(p.width, p.height);
    var corners := Corners(p.width, p.height);
    var pct := PercentBlank(p.blanks, p.width, p.height);
    var own := AwareTally(p.own, walls, corners, pct);
    var opp := AwareTally(p.opp, walls, corners, pct);
    Guarded(p, 0.3 * (own.wall - opp.wall) as real + 0.7 * (own.corner - opp.corner) as real
               + 1.0 * (own.open - opp.open) as real)
  }

  /** Exchanging the two move lists negates the wall- and corner-aware
      score, on any board. */
  lemma WallCornerAwareAntisymmetric(p: Position)
    requires p.width * p.height > 0 && !p.loser && !p.winner
    ensures WallCornerAware(SwapMoves(p)).v == -WallCornerAware(p).v
  {
  }

  /** One more move for the player adds 0.3 times its wall amount, 0.7
      times its corner amount and its open amount; for instance an early
      corner move off the walls adds 0.7 * 15 = 10.5. */
  lemma WallCornerAwareStep(p: Position, c: Cell)
    requires p.width * p.height > 0 && !p.loser && !p.winner
    ensures var st := AwareStep(c, Walls(p.width, p.height), Corners(p.width, p.height),
                                PercentBlank(p.blanks, p.width, p.height));
      WallCornerAware(p.(own := [c] + p.own)).v
        == WallCornerAware(p).v + 0.3 * st.wall as real + 0.7 * st.corner as real + st.open as real
  {
  }

  /** On a square board every corner is also in a wall list, so no move
      ever reaches the corner branch. */
  lemma {:induction false} SquareTallyHasNoCorners(moves: seq<Cell>, n: nat, pct: int)
    requires n >= 1
    ensures AwareTally(moves, Walls(n, n), Corners(n, n), pct).corner == 0
  {
    if |moves| > 0 {
      if IsInCorners(moves[0], Corners(n, n)) {
        SquareCornersAreNearWalls(moves[0], n);
      }
      SquareTallyHasNoCorners(moves[1..], n, pct);
    }
  }

  /** Hence on a square board the corner weight 0.7 has no effect. */
  lemma SquareBoardIgnoresCorners(p: Position)
    requires p.width == p.height >= 1 && !p.loser && !p.winner
    ensures var walls := Walls(p.width, p.height);
      var corners := Corners(p.width, p.height);
      var pct := PercentBlank(p.blanks, p.width, p.height);
      var own := AwareTally(p.own, walls, corners, pct);
      var opp := AwareTally(p.opp, walls, corners, pct);
      WallCornerAware(p).v == 0.3 * (own.wall - opp.wall) as real + (own.open - opp.open) as real
  {
    var pct := PercentBlank(p.blanks, p.width, p.height);
    SquareTallyHasNoCorners(p.own, p.width, pct);
    SquareTallyHasNoCorners(p.opp, p.width, pct);
  }
}

=== FILE: minimax.dfy ===
/**
 `MinimaxPlayer`: depth-limited minimax under a clock.

 The clock `t` is the reading of `time_left()` in milliseconds. Every frame
 (`minimax`, `min_value`, `max_value`) first compares it with the threshold
 `T` and unwinds with `Interrupted` when it is below; otherwise the frame
 costs one tick and runs. Evaluating a leaf does not look at the clock.
 */
module MinimaxPlayer {
  import opened Scores
  import opened Games
  import opened Argmax
  import opened GameTree

  /** Number of frames a search of the layer at `cur` enters. */
  function Frames<S, M>(g: Game<S, M>, s: S, cur: nat, limit: nat): (n: nat)
    requires 1 <= cur <= limit
    ensures n >= 1
    decreases limit - cur, 1, 0
  {
    1 + LoopFrames(g, s, g.moves(s), 0, cur, limit)
  }

  function LoopFrames<S, M>(g: Game<S, M>, s: S, ms: seq<M>, k: nat, cur: nat, limit: nat): nat
    requires 1 <= cur <= limit && k <= |ms|
    decreases limit - cur, 0, |ms| - k
  {
    if k == |ms| then 0
    else ChildFrames(g, s, ms[k], cur, limit) + LoopFrames(g, s, ms, k + 1, cur, limit)
  }

  function ChildFrames<S, M>(g: Game<S, M>, s: S, m: M, cur: nat, limit: nat): nat
    requires 1 <= cur <= limit
    decreases limit - cur, 0, 0
  {
    if cur == limit then 0 else Frames(g, g.forecast(s, m), cur + 1, limit)
  }

  /** A loop opens no frame exactly when its children sit on the horizon,
      where they are scored without a timer check, or when it has no
      children left. */
  lemma {:induction false} LoopFramesZeroIff<S, M>(g: Game<S, M>, s: S, ms: seq<M>, k: nat, cur: nat, limit: nat)
    requires 1 <= cur <= limit && k <= |ms|
    ensures LoopFrames(g, s, ms, k, cur, limit) == 0 <==> cur == limit || k == |ms|
    decreases |ms| - k
  {
    if k < |ms| {
      LoopFramesZeroIff(g, s, ms, k + 1, cur, limit);
    }
  }

  /** Frames entered by a whole search of depth `depth`, the root included:
      only the root's own when the depth is 1 or the root has no moves,
      since the children of a depth-1 root are scored directly. */
  function RootFrames<S, M>(g: Game<S, M>, s: S, depth: nat): (n: nat)
    requires depth >= 1
    ensures n >= 1
    ensures n == 1 <==> depth == 1 || |g.moves(s)| == 0
  {
    LoopFramesZeroIff(g, s, g.moves(s), 0, 1, depth);
    1 + LoopFrames(g, s, g.moves(s), 0, 1, depth)
  }

  /** `min_value` (max == false) and `max_value` (max == true). The frame
      completes exactly when the clock still reads at least `T` on entry to
      the last frame it opens; then it returns the minimax value and has
      spent one tick per frame. */
  function Frame<S, M>(g: Game<S, M>, T: nat, s: S, cur: nat, limit: nat, max: bool, t: int): (r: Outcome<Score>)
    requires 1 <= cur <= limit
    ensures t < T ==> r == Interrupted
    ensures r.Done? <==> t - Frames(g, s, cur, limit) + 1 >= T
    ensures r.Done? ==> r.value == Value(g, s, cur, limit, max) && r.left == t - Frames(g, s, cur, limit)
    decreases limit - cur, 1, 0
  {
    if t < T then Interrupted
    else
      var ms := g.moves(s);
      if |ms| == 0 then Done(Sentinel(max), t - 1)
      else FrameLoop(g, T, s, ms, 0, cur, limit, max, Sentinel(max), t - 1)
  }

  /** The `for m in legal_moves` loop of a frame, from `ms[k]` on. */
  function FrameLoop<S, M>(g: Game<S, M>, T: nat, s: S, ms: seq<M>, k: nat, cur: nat, limit: nat, max: bool, best: Score, t: int): (r: Outcome<Score>)
    requires 1 <= cur <= limit && k <= |ms|
    ensures r.Done? <==> LoopFrames(g, s, ms, k, cur, limit) == 0 || t - LoopFrames(g, s, ms, k, cur, limit) + 1 >= T
    ensures r.Done? ==> r.value == Fold(g, s, ms, k, cur, limit, max, best) && r.left == t - LoopFrames(g, s, ms, k, cur, limit)
    decreases limit - cur, 0, |ms| - k
  {
    if k == |ms| then Done(best, t)
    else
      match ChildOutcome(g, T, s, ms[k], cur, limit, max, t)
      case Interrupted => Interrupted
      case Done(v, left) => FrameLoop(g, T, s, ms, k + 1, cur, limit, max, Improve(max, best, v), left)
  }

  /** One iteration's score: `self.score(...)` at the horizon, otherwise
      the opposite helper one ply deeper. */
  function ChildOutcome<S, M>(g: Game<S, M>, T: nat, s: S, m: M, cur: nat, limit: nat, max: bool, t: int): (r: Outcome<Score>)
    requires 1 <= cur <= limit
    ensures r.Done? <==> ChildFrames(g, s, m, cur, limit) == 0 || t - ChildFrames(g, s, m, cur, limit) + 1 >= T
    ensures r.Done? ==> r.value == ChildValue(g, s, m, cur, limit, max) && r.left == t - ChildFrames(g, s, m, cur, limit)
    decreases limit - cur, 0, 0
  {
    var next := g.forecast(s, m);
    if cur == limit then Done(g.score(next), t)
    else Frame(g, T, next, cur + 1, limit, !max, t)
  }

  /** `minimax`: the timer check, the (-1, -1) reply when the root has no
      legal moves (nothing is scored then), and otherwise the first legal
      move whose value is maximal. */
  function Search<S, M>(g: Game<S, M>, T: nat, s: S, depth: nat, t: int): (r: Outcome<Reply<M>>)
    requires depth >= 1
    ensures t < T ==> r == Interrupted
    ensures r.Done? <==> t - RootFrames(g, s, depth) + 1 >= T
    ensures r.Done? ==> r.value == BestMove(g, s, depth) && r.left == t - RootFrames(g, s, depth)
    ensures depth == 1 ==> (r.Done? <==> t >= T)
  {
    if t < T then Interrupted
    else
      var ms := g.moves(s);
      if |ms| == 0 then Done(NoMove, t - 1)
      else
        match RootLoop(g, T, s, ms, depth, 0, 0, Loss, t - 1)
        case Interrupted => Interrupted
        case Done(i, left) => Done(Play(ms[i]), left)
  }

  /** The root loop: `best_move` starts at `legal_moves[0]` with -inf and is
      replaced only on a strictly greater score. It tracks the index of the
      best move rather than the move itself. */
  function RootLoop<S, M>(g: Game<S, M>, T: nat, s: S, ms: seq<M>, depth: nat, k: nat, bi: nat, best: Score, t: int): (r: Outcome<nat>)
    requires depth >= 1 && ms == g.moves(s) && k <= |ms| && bi < |ms|
    ensures r.Done? <==> LoopFrames(g, s, ms, k, 1, depth) == 0 || t - LoopFrames(g, s, ms, k, 1, depth) + 1 >= T
    ensures r.Done? ==> r.value == FirstBest(RootValues(g, s, depth), k, bi, best) && r.left == t - LoopFrames(g, s, ms, k, 1, depth)
    decreases |ms| - k
  {
    if k == |ms| then Done(bi, t)
    else
      match ChildOutcome(g, T, s, ms[k], 1, depth, true, t)
      case Interrupted => Interrupted
      case Done(v, left) =>
        if Lt(best, v) then RootLoop(g, T, s, ms, depth, k + 1, k, v, left)
        else RootLoop(g, T, s, ms, depth, k + 1, bi, best, left)
  }

  /** `MinimaxPlayer.get_move`: the minimax move at `search_depth` when the
      search completes, and (-1, -1) when it times out. */
  function GetMove<S, M>(g: Game<S, M>, T: nat, s: S, searchDepth: nat, t: int): (r: Reply<M>)
    requires searchDepth >= 1
    ensures t - RootFrames(g, s, searchDepth) + 1 >= T ==> r == BestMove(g, s, searchDepth)
    ensures t - RootFrames(g, s, searchDepth) + 1 < T ==> r == NoMove
    ensures r.Play? ==> r.move in g.moves(s)
  {
    match Search(g, T, s, searchDepth, t)
    case Done(mv, _) => mv
    case Interrupted => NoMove
  }

  /** More time never turns a completed search into a timed-out one, and
      the chosen move does not depend on the time left. */
  lemma SearchMonotoneInTime<S, M>(g: Game<S, M>, T: nat, s: S, depth: nat, t: int, t': int)
    requires depth >= 1 && t <= t'
    requires Search(g, T, s, depth, t).Done?
    ensures Search(g, T, s, depth, t').Done?
    ensures Search(g, T, s, depth, t').value == Search(g, T, s, depth, t).value
  {
  }
}

=== FILE: scores.dfy ===
/**
 Scores of game states. The agents use floating-point infinities as the
 sentinels of a definite loss and a definite win; here they are the two
 extremal constructors of a tagged type, ordered Loss < Finite(x) < Win.
 */
module Scores {

  datatype Score = Loss | Finite(v: real) | Win

  /** Strict order of scores: the order of floats with -inf and +inf. */
  predicate Lt(a: Score, b: Score) {
    match (a, b)
    case (Loss, Loss) => false
    case (Loss, _) => true
    case (Finite(x), Finite(y)) => x < y
    case (Finite(_), Win) => true
    case (_, _) => false
  }

  predicate Le(a: Score, b: Score) {
    !Lt(b, a)
  }

  /** Python's max(a, b) on the scores used as alpha. */
  function Max(a: Score, b: Score): (r: Score)
    ensures Le(a, r) && Le(b, r)
    ensures r == a || r == b
  {
    if Lt(a, b) then b else a
  }

  /** Python's min(a, b) on the scores used as beta. */
  function Min(a: Score, b: Score): (r: Score)
    ensures Le(r, a) && Le(r, b)
    ensures r == a || r == b
  {
    if Lt(b, a) then b else a
  }

  /** The score a layer with no legal moves reports, which is also the
      initial running best of a layer: -inf when maximising, +inf when
      minimising. */
  function Sentinel(max: bool): (r: Score)
    ensures max ==> forall x :: Le(r, x)
    ensures !max ==> forall x :: Le(x, r)
  {
    if max then Loss else Win
  }

  /** The running best after one more child: replaced only on a strict
      improvement, as in `if score > best_score` / `if score < best_score`. */
  function Improve(max: bool, best: Score, v: Score): (r: Score)
    ensures max ==> Le(best, r) && Le(v, r)
    ensures !max ==> Le(r, best) && Le(r, v)
    ensures r == best || r == v
  {
    if max then (if Lt(best, v) then v else best)
    else (if Lt(v, best) then v else best)
  }

  lemma {:induction false} LtIsStrictTotalOrder(a: Score, b: Score, c: Score)
    ensures !Lt(a, a)
    ensures Lt(a, b) ==> !Lt(b, a)
    ensures Lt(a, b) && Lt(b, c) ==> Lt(a, c)
    ensures a != b ==> Lt(a, b) || Lt(b, a)
  {
    match (a, b, c)
    case (Finite(x), Finite(y), Finite(z)) =>
    case (_, _, _) =>
  }

  lemma LeTransitive(a: Score, b: Score, c: Score)
    requires Le(a, b) && Le(b, c)
    ensures Le(a, c)
  {
    LtIsStrictTotalOrder(a, b, c);
    LtIsStrictTotalOrder(c, a, b);
    LtIsStrictTotalOrder(b, c, a);
  }

  lemma LeAntisymmetric(a: Score, b: Score)
    requires Le(a, b) && Le(b, a)
    ensures a == b
  {
    LtIsStrictTotalOrder(a, b, a);
  }
}
